=== FILE: README.md ===
# pyrocs complex-systems metrics in Dafny

This project models the complex-systems metrics of pyrocs:

- **Causal complexity of a causal graph** (`causal_complexity.py`), given as a square adjacency matrix:
  - cyclomatic complexity M = E − N + 2P;
  - feedback density D = (E_loop + N_loop) / (E + N);
  - causal complexity C = M·(1 + D).
- **Global reaching centrality** (`grc.py`). Each node's local reach centrality is the mean inverse distance from it to the other nodes. GRC is the sum of the gaps to the largest local reach centrality, divided by N − 1.
- **The legacy versions of the same metrics** (`old/metrics.py`). They work on a networkx graph that is either directed or undirected. They include `hierarchy`, whose fallback takes the reciprocated undirected copy of a directed graph.
- **Fluctuation complexity of a symbol sequence** (`fluctuation_complexity.py`). Symbols are optionally grouped into sliding windows of length L. The metric is the mean over neighbouring pairs of the squared log₂ frequency ratio.
- **The past/future data splitters** (`old/DataSplitter.py`). The four kinds are halves, every split point, quartiles, and quartile subsets.
- **The normalized-compression-distance estimator** (`old/NCDEstimator.py`). An estimator object holds a splitter and an array of nu_splits values. Each `estimate()` pulls the splitter's remaining pairs, writes one NCD per pair into the array, and returns the array's mean.

Modules:

| module | file | what it holds |
|---|---|---|
| `Outcome` | outcome.dfy | `Result` (the Python exceptions: non-square matrix, division by zero, negative array size) and `Option` |
| `Graph` | graph.dfy | matrices, the three views of a matrix (directed, undirected, reciprocal), bounded reachability `Ball`, `ReachSet`, `Dist` and their walk semantics |
| `Counts` | counts.dfy | counting nodes that pass a test, counting edges in each view, handshake lemma, transpose |
| `Fractions` | fractions.dfy | bounds on quotients of reals used by the ratios |
| `Components` | components.dfy | connected components counted by their least member |
| `Aggregate` | aggregate.dfy | sums, maximum, and the normalised spread used by GRC |
| `Causal` | causal.dfy | cyclomatic complexity, feedback density, causal complexity |
| `CausalExamples` | causal_examples.dfy | the four test matrices A–D and their expected values |
| `Reaching` | reaching.dfy | inverse distances, local reach centrality, GRC, `grc` |
| `ReachingExample` | reaching_example.dfy | the ten-node test matrix E and its GRC of 1/27 |
| `Legacy` | legacy.dfy | `old/metrics.py`: cyclomatic, feedback, causal intricacy record, hierarchy |
| `Fluctuation` | fluctuation.dfy | windows, frequency counter, pair values, fluctuation complexity |
| `Splitting` | splitter.dfy | the four splitters and `nextData` |
| `Ncd` | ncd.dfy | float distances (finite, +inf, nan), NCD from sizes and from data, `getFullSize`, the estimator object and `estimate` |

Modelling choices:

- **Graphs** are `seq<seq<int>>`. An entry that is not 0 is an arc from its row to its column.
  - `nx.from_numpy_matrix` / `from_numpy_array` without a multigraph gives the undirected view: u–v is an edge when either arc exists.
  - The multigraph built by `feedback_density` with `parallel_edges=False` has one edge per nonzero entry. That is the directed view.
  - A non-square matrix is `Err(NotSquare)`.
  - The legacy functions take a networkx graph, whose adjacency is always square. `Legacy.NxGraph` carries a raw matrix, so their `Err(NotSquare)` path stands for no real graph.
- **Division by zero** is `Err(ZeroDivision)`. Examples are the empty graph in feedback density, a one-symbol sequence in fluctuation complexity, and GRC of a single node with a self-loop.
- **Floating point** is modelled as exact `real` arithmetic. The test values 0.857142… and 5.571428… appear as 6/7 and 39/7; 0.037037… appears as 1/27.
- **`grc`'s `directed` flag does not choose the graph type.** Both branches of `grc.py:33-36` build an undirected graph, since the second positional argument of `from_numpy_array` is `parallel_edges`. The model follows the code: `Reaching.Grc` ignores the flag, and `Reaching.GrcIgnoresDirection` proves it. The test's 1/27 for matrix E is the undirected GRC.
- **A one-node graph with a self-loop** is the one input where `grc` divides by N − 1 = 0. It is an error path of the model, not a precondition.
- **Feedback density's node count.** `find_cycle(G, node)` succeeds when a directed cycle is reachable from the node, not only when the node lies on one. The model (`Causal.ReachesCycle`) counts those nodes. The test matrices do not tell the two readings apart: in matrix D, node 3 neither lies on a cycle nor reaches one, so both give 6/7.
- **The legacy undirected `feedback_density`.**
  - Every edge of an undirected graph can be walked back, so E_loop = E.
  - On an undirected graph `find_cycle` succeeds exactly when the node's component is not a tree. The model states that as "the component holds at least as many edges as nodes" (`Legacy.InCyclicComponent`).
- **`log2`** is a parameter of the fluctuation metric, constrained by two laws: log 1 = 0 and log(b/a) = −log(a/b). The `lru_cache` is modelled by the memo map of the method `ComputeFluctuation`.
- **The estimate loop** stops as soon as the splitter has no pair left (`Splitting.HasNext`). The source makes one more `nextData` call that returns nothing; by `Splitting.NextData` that call leaves the splitter unchanged, so the two agree.
- **The NCD estimator is an object with state.** `Ncd.Estimator` holds the splitter and the `ncd_values` array. `Ncd.NewEstimator` is the constructor, and `np.zeros` of a negative length is its error. `Ncd.EstimateOf` returns the updated estimator along with the result, so a second `estimate()` sees a drained splitter (`Ncd.EstimateAgain`).
- **NCD values are float64**: `Ncd.Distance` is a finite real, +inf or nan. With both sizes 0, `NCDfromLen` divides by zero: +inf when the joint size is positive, nan when it is 0. `ncd > 1` holds of +inf and fails for nan, and `np.mean` propagates both.
- **The compressor** of the NCD estimator is a size function parameter. The base class's `get_compressed_size` (the length) is `Ncd.CompressedSize`.
- **The printed warnings** become flags or index lists in the results:
  - "no edges" is `noEdges`;
  - "GRC on the undirected version" is `undirectedFallback`;
  - "NCD > 1" is `warnings`.

## Model

| member | source | states |
|---|---|---|
| Graph.Nodes | pyrocs/complex_systems/causal_complexity.py:20 | the node set of an N×N matrix is exactly 0..N−1 and has N elements |
| Graph.ReachSetIsReaches | pyrocs/complex_systems/old/metrics.py:60 | a node is in the reach set of u iff some walk leads from u to it (has_path) |
| Graph.ReachSetWithinNodes | pyrocs/complex_systems/old/metrics.py:60 | the reach set holds its source, stays inside the node set and has between 1 and N members |
| Graph.BallIsWalkBound | pyrocs/complex_systems/grc.py:42 | v is within k hops of u iff a walk of at most k steps leads there |
| Graph.BallMonotone | pyrocs/complex_systems/grc.py:42 | the set of nodes within k hops only grows with k |
| Graph.Dist | pyrocs/complex_systems/grc.py:42 | the shortest-path distance to a reachable node is at most N |
| Graph.DistIsShortestWalk | pyrocs/complex_systems/grc.py:42 | a walk of Dist steps reaches v and no shorter walk does |
| Graph.DistZeroIffSame | pyrocs/complex_systems/grc.py:42 | the distance is 0 iff the two nodes coincide |
| Counts.CountBelowRange | pyrocs/complex_systems/causal_complexity.py:49-55 | a count of nodes below k satisfying a test is at most k, equals k iff all pass and is 0 iff none pass |
| Counts.CountIsFilterSize | pyrocs/complex_systems/causal_complexity.py:18 | counting nodes one by one gives the size of the set of nodes that pass the test |
| Counts.Handshake | pyrocs/complex_systems/causal_complexity.py:19 | in a symmetric view, ordered edge pairs plus self-loops equal twice the number of edges |
| Counts.ArcCountBounds | pyrocs/complex_systems/causal_complexity.py:16-19 | the undirected edge count E is at most the arc count, which is at most 2E |
| Counts.NoEdgesIffZero | pyrocs/complex_systems/grc.py:38 | a square matrix has no undirected edge iff every entry is zero |
| Counts.Transpose | pyrocs/complex_systems/grc.py:33-36 | the transpose is square and has an arc u→v iff the matrix has v→u |
| Counts.TransposeKeepsEdgeCount | pyrocs/complex_systems/grc.py:33-36 | transposing keeps the undirected edge count |
| Components.SameComponent | pyrocs/complex_systems/causal_complexity.py:18 | any member of a component has that same component |
| Components.ComponentHasLeader | pyrocs/complex_systems/causal_complexity.py:18 | every component has a least member that stands for it |
| Components.ComponentCountIsComponents | pyrocs/complex_systems/causal_complexity.py:18 | the counted components equal the number of distinct components (number_connected_components) |
| Components.ComponentCountRange | pyrocs/complex_systems/causal_complexity.py:18 | a graph of N ≥ 1 nodes has between 1 and N components |
| Components.EdgelessComponents | pyrocs/complex_systems/causal_complexity.py:18 | without arcs every node is its own component |
| Aggregate.SumBelow | pyrocs/complex_systems/grc.py:15 | a sum of N values each at most m is at most N·m, with equality iff all equal m |
| Aggregate.Max | pyrocs/complex_systems/grc.py:15 | the maximum bounds every value and is attained |
| Aggregate.GapsIsDeficit | pyrocs/complex_systems/grc.py:15 | the sum of gaps to m equals N·m minus the sum |
| Aggregate.Spread | pyrocs/complex_systems/grc.py:15-23 | GRC's normalised spread of values in [0, 1] lies in [0, 1] and is 0 iff all values are equal |
| Causal.CyclomaticComplexity | pyrocs/complex_systems/causal_complexity.py:16-22 | error iff the matrix is not square; otherwise E − N + 2P with P the number of distinct connected components |
| Causal.EdgelessCyclomatic | pyrocs/complex_systems/causal_complexity.py:16-22 | an all-zero N×N matrix has cyclomatic complexity N |
| Causal.FeedbackDensity | pyrocs/complex_systems/causal_complexity.py:36-57 | error iff not square or empty (division by zero); otherwise a value in [0, 1] |
| Causal.Ratio | pyrocs/complex_systems/causal_complexity.py:57 | a count over a larger total lies in [0, 1], is 1 iff they are equal and 0 iff the count is 0 |
| Causal.CausalComplexity | pyrocs/complex_systems/causal_complexity.py:70-73 | error iff feedback density fails; otherwise, for M ≥ 0, M ≤ C ≤ 2M |
| Causal.Scaled | pyrocs/complex_systems/causal_complexity.py:73 | M·(1 + D) lies between M and 2M for M ≥ 0 |
| Causal.ClosesLoopMeaning | pyrocs/complex_systems/causal_complexity.py:42-45 | an arc u→v counts toward E_loop iff there is a path from v back to u; then u lies on a cycle |
| Causal.SelfLoopCloses | pyrocs/complex_systems/causal_complexity.py:42-45 | a self-loop always counts toward E_loop |
| Causal.ReachesCycleMeaning | pyrocs/complex_systems/causal_complexity.py:49-55 | the cycle search from u succeeds iff u reaches some node on a directed cycle |
| Causal.CycleNodeCounts | pyrocs/complex_systems/causal_complexity.py:49-55 | a node on a cycle counts toward N_loop |
| Causal.SinkNotCounted | pyrocs/complex_systems/causal_complexity.py:49-55 | a node with no outgoing arc does not count toward N_loop |
| Causal.LoopArcsBound | pyrocs/complex_systems/causal_complexity.py:38-47 | E_loop ≤ E, with equality iff every arc closes a loop |
| Causal.CycleNodesBound | pyrocs/complex_systems/causal_complexity.py:49-55 | N_loop ≤ N, equal to N iff every node reaches a cycle and 0 iff none does |
| Causal.FullFeedback | pyrocs/complex_systems/causal_complexity.py:29 | D = 1 iff every arc closes a loop and every node reaches a cycle |
| Causal.AcyclicFeedback | pyrocs/complex_systems/causal_complexity.py:29 | D = 0 iff the graph has no directed cycle |
| Causal.AcyclicCausal | pyrocs/complex_systems/causal_complexity.py:70-73 | without directed cycles causal complexity equals cyclomatic complexity |
| CausalExamples.ExampleA | test/test_complex_systems.py:7-11 | matrix A: M = 1, D = 0, C = 1 |
| CausalExamples.ExampleB | test/test_complex_systems.py:13-17 | matrix B: M = 2, D = 0, C = 2 |
| CausalExamples.ExampleC | test/test_complex_systems.py:19-23 | matrix C (a 3-cycle): M = 2, D = 1, C = 4 |
| CausalExamples.ExampleD | test/test_complex_systems.py:25-30 | matrix D (3-cycle plus isolated node): M = 3, D = 6/7, C = 39/7 |
| CausalExamples.TestMatrices | test/test_complex_systems.py:52-102 | the literal test matrices give the values the test suite asserts |
| CausalExamples.ExampleEdgeless | pyrocs/complex_systems/causal_complexity.py:16-22 | the all-zero n×n matrix has cyclomatic complexity n |
| Reaching.DistOneIffEdge | pyrocs/complex_systems/grc.py:42 | v ≠ u is at distance 1 iff it is a neighbour |
| Reaching.DistTwo | pyrocs/complex_systems/grc.py:42 | a non-neighbour reached through a neighbour is at distance 2 |
| Reaching.InvDist | pyrocs/complex_systems/grc.py:17-19 | the inverse distance is in [0, 1] and is 0 iff the node is u itself or unreachable |
| Reaching.InvDistOne | pyrocs/complex_systems/grc.py:17-19 | the inverse distance is 1 iff the node is a neighbour other than u |
| Reaching.Weights | pyrocs/complex_systems/grc.py:17-19 | one inverse distance per node, all in [0, 1], 0 at u itself |
| Reaching.Lrc | pyrocs/complex_systems/grc.py:17-19 | local reach centrality lies in [0, 1] |
| Reaching.LrcZero | pyrocs/complex_systems/grc.py:17-19 | local reach centrality is 0 iff u reaches nothing but itself |
| Reaching.LrcOne | pyrocs/complex_systems/grc.py:17-19 | it is 1 iff u reaches every node (directed) or is adjacent to every other node (undirected) |
| Reaching.LrcWithinTwo | pyrocs/complex_systems/grc.py:17-19 | when every node is within two hops, C_R(u) = (N − 1 + deg u) / (2(N − 1)) |
| Reaching.Lrcs | pyrocs/complex_systems/grc.py:17-20 | one local reach centrality per node, all in [0, 1] |
| Reaching.GrcValue | pyrocs/complex_systems/grc.py:13-23 | GRC lies in [0, 1] and is 0 iff all local reach centralities are equal |
| Reaching.Grc | pyrocs/complex_systems/grc.py:33-42 | error iff not square or a single node with a self-loop; no-edges flag iff all entries are 0, then value 0; otherwise the value is in [0, 1] and 0 iff all undirected local reach centralities agree |
| Reaching.SameDist | pyrocs/complex_systems/grc.py:42 | two graphs with the same links have the same distances |
| Reaching.SameGrcValue | pyrocs/complex_systems/grc.py:42 | two graphs with the same links have the same GRC |
| Reaching.GrcDependsOnLinks | pyrocs/complex_systems/grc.py:33-42 | grc depends only on which node pairs are linked |
| Reaching.GrcIgnoresDirection | pyrocs/complex_systems/grc.py:33-36 | the directed flag and transposing the matrix do not change grc |
| ReachingExample.LrcE | test/test_complex_systems.py:32-43 | each node u of matrix E has C_R(u) = (9 + deg u)/18 |
| ReachingExample.LrcsE | test/test_complex_systems.py:32-43 | the local reach centralities of E are 13, 14, 14, 11, 14, 14, 12, 14, 14, 14 eighteenths |
| ReachingExample.SpreadE | test/test_complex_systems.py:117 | the spread of those centralities is 1/27 |
| ReachingExample.ExampleE | test/test_complex_systems.py:115-117 | any matrix with E's links has grc 1/27 with either flag |
| ReachingExample.TestMatrixE | test/test_complex_systems.py:32-43 | the literal matrix E has grc(E, True) = 1/27 |
| Legacy.OldCyclomatic | pyrocs/complex_systems/old/metrics.py:37-44 | error iff not square; otherwise the graph's own edge count − N + 2P with P the undirected components |
| Legacy.OldCyclomaticUndirected | pyrocs/complex_systems/old/metrics.py:37-44 | on an undirected graph it agrees with the current cyclomatic complexity |
| Legacy.OldCyclomaticDirected | pyrocs/complex_systems/old/metrics.py:37-44 | on a directed graph it lies between the current value and that plus the undirected edge count |
| Legacy.OldFeedback | pyrocs/complex_systems/old/metrics.py:57-77 | error iff not square or empty; density in [0, 1]; loop edges ≤ E, loop nodes ≤ N; density 1 iff both are full |
| Legacy.OldFeedbackDirected | pyrocs/complex_systems/old/metrics.py:57-77 | on a directed graph the density agrees with the current feedback density |
| Legacy.OldFeedbackCounts | pyrocs/complex_systems/old/metrics.py:57-77 | the returned counts: on a directed graph the current metric's loop arcs and cycle-reaching nodes; on an undirected graph every edge passes the walk-back test and all E are counted, the node count is N (0) iff every (no) node's component holds a cycle, and the density is 0 iff there is no edge |
| Legacy.EdgeWalksBack | pyrocs/complex_systems/old/metrics.py:58-61 | on an undirected graph each end of an edge reaches the other, so every edge passes the has_path test |
| Legacy.LoneNodeCycles | pyrocs/complex_systems/old/metrics.py:65-70 | an undirected node without other neighbours lies in a cyclic component iff it has a self-loop |
| Legacy.OldCausal | pyrocs/complex_systems/old/metrics.py:89-104 | error iff not square or empty; the record echoes nodes, edges, cyclomatic and feedback parts; M ≤ causal ≤ 2M for M ≥ 0 |
| Legacy.OldCausalDirected | pyrocs/complex_systems/old/metrics.py:89-104 | on a directed graph it fails exactly when the current one does and is never smaller |
| Legacy.ScaledMonotone | pyrocs/complex_systems/old/metrics.py:94 | M·(1 + D) grows with M |
| Legacy.OldHierarchy | pyrocs/complex_systems/old/metrics.py:113-130 | error iff not square or a one-node self-loop; no-edges flag iff all entries are 0, then 0; fallback iff directed, GRC 0 and the reciprocated edges are half the arcs; otherwise the GRC of the graph |
| Legacy.OldHierarchyUndirected | pyrocs/complex_systems/old/metrics.py:113-130 | on an undirected graph it agrees with grc |
| Legacy.LooksUndirectedMeaning | pyrocs/complex_systems/old/metrics.py:122-125 | without self-loops, the "half the edges" test holds iff every arc is reciprocated |
| Legacy.FallbackIsUndirectedGrc | pyrocs/complex_systems/old/metrics.py:118-128 | for a loop-free directed graph of GRC 0 the fallback fires iff all arcs are reciprocated, and then returns grc of the matrix |
| Fluctuation.Windows | pyrocs/complex_systems/fluctuation_complexity.py:32-33 | len(A) + 1 − L windows (none if negative), window i being A[i..i+L] |
| Fluctuation.WindowsOverlap | pyrocs/complex_systems/fluctuation_complexity.py:33 | neighbouring windows overlap in L − 1 symbols |
| Fluctuation.Frequencies | pyrocs/complex_systems/fluctuation_complexity.py:36 | the counter holds exactly the symbols of A, each with its multiplicity |
| Fluctuation.SameFrequencies | pyrocs/complex_systems/fluctuation_complexity.py:36 | permutations of A have the same counter |
| Fluctuation.FrequenciesTotal | pyrocs/complex_systems/fluctuation_complexity.py:35-36 | the counts add up to N |
| Fluctuation.PairValue | pyrocs/complex_systems/fluctuation_complexity.py:39-42 | the squared log ratio is non-negative |
| Fluctuation.PairValueEqual | pyrocs/complex_systems/fluctuation_complexity.py:39-42 | two equally frequent symbols contribute 0 |
| Fluctuation.PairValueSymmetric | pyrocs/complex_systems/fluctuation_complexity.py:39-42 | the contribution does not depend on the order of the pair |
| Fluctuation.PairSumFront | pyrocs/complex_systems/fluctuation_complexity.py:44-45 | the sum over neighbouring pairs is the first pair's value plus the rest |
| Fluctuation.PairSumReverse | pyrocs/complex_systems/fluctuation_complexity.py:44-45 | reversing the sequence keeps the pair sum |
| Fluctuation.FluctuationOf | pyrocs/complex_systems/fluctuation_complexity.py:35-46 | division-by-zero error iff N = 1; otherwise non-negative, and 0 when N < 2 |
| Fluctuation.FluctuationComplexity | pyrocs/complex_systems/fluctuation_complexity.py:32-46 | error iff there is exactly one symbol or one window; otherwise non-negative |
| Fluctuation.BalancedIsZero | pyrocs/complex_systems/fluctuation_complexity.py:38-46 | if all neighbouring symbols are equally frequent the metric is 0 |
| Fluctuation.ConstantIsZero | pyrocs/complex_systems/fluctuation_complexity.py:38-46 | a constant sequence has metric 0 |
| Fluctuation.AlternatingIsZero | pyrocs/complex_systems/fluctuation_complexity.py:38-46 | abab… has metric 0 |
| Fluctuation.ReverseInvariant | pyrocs/complex_systems/fluctuation_complexity.py:35-46 | reversing the sequence does not change the metric |
| Fluctuation.ComputeFluctuation | pyrocs/complex_systems/fluctuation_complexity.py:35-46 | the loop with a memo of pair values computes the metric |
| Splitting.QuartilePoints | pyrocs/complex_systems/old/DataSplitter.py:59-68 | three ordered cut points within the series: the middle one at h = ⌊n/2⌋, the first at the midpoint of [0, h] and the last at the midpoint of [h, n], each rounded down |
| Splitting.Cuts | pyrocs/complex_systems/old/DataSplitter.py:25-92 | start ≤ cut ≤ stop ≤ n; every kind but quartile subsets starts at 0 and stops at n |
| Splitting.NextData | pyrocs/complex_systems/old/DataSplitter.py:28-35 | nothing, and the splitter unchanged, iff the splits are used up; otherwise the current pair and the index advanced by one |
| Splitting.SplitCovers | pyrocs/complex_systems/old/DataSplitter.py:49-52 | past followed by future is the whole series, except for quartile subsets |
| Splitting.HalvesLengths | pyrocs/complex_systems/old/DataSplitter.py:25-26 | the default splitter cuts at ⌊n/2⌋, giving equal halves for even n |
| Splitting.FullLengths | pyrocs/complex_systems/old/DataSplitter.py:41-46 | split i of the full splitter has i + 1 past and n − i − 1 future samples |
| Splitting.SubsetsChain | pyrocs/complex_systems/old/DataSplitter.py:79-92 | a quartile-subset pair covers only the span between its cuts, and each future is the next past |
| Splitting.Pairs | pyrocs/complex_systems/old/DataSplitter.py:28-35 | the splitter yields nu_splits − index pairs before it runs dry |
| Splitting.PairsAt | pyrocs/complex_systems/old/DataSplitter.py:28-35 | the k-th pair yielded is the one cut at index + k |
| Splitting.FreshPairs | pyrocs/complex_systems/old/DataSplitter.py:18-23 | a splitter just built over a series (index 0) yields nu_splits pairs before it runs dry, or none if that is negative |
| Splitting.TenSampleLengths | pyrocs/complex_systems/old/test_NCDEstimator.py:15-60 | on ten samples the pieces have the lengths the tests expect for every kind |
| Ncd.NcdFromLen | pyrocs/complex_systems/old/NCDEstimator.py:25-26 | +inf iff both sizes are 0 and the joint size is positive, nan iff all three are 0; at most 1 when the joint size is at most the sum, at least 0 when it is at least the larger size |
| Ncd.NcdSymmetric | pyrocs/complex_systems/old/NCDEstimator.py:25-26 | the distance is symmetric in the two pieces |
| Ncd.NcdOfSum | pyrocs/complex_systems/old/NCDEstimator.py:1-11 | a joint size equal to the sum of the parts gives exactly 1 |
| Ncd.NcdFromData | pyrocs/complex_systems/old/NCDEstimator.py:28-33 | finite iff one of the pieces has positive size; without a joint size it uses the size of the concatenation |
| Ncd.GetFullSize | pyrocs/complex_systems/old/NCDEstimator.py:35-46 | it stores a size except for quartile subsets, but returns nothing to estimate |
| Ncd.WarningsMembers | pyrocs/complex_systems/old/NCDEstimator.py:51-52 | exactly the split indices whose distance exceeds 1 (a finite value above 1, or +inf) are reported |
| Ncd.InfiniteWarns | pyrocs/complex_systems/old/NCDEstimator.py:51-52 | a split whose pieces both have size 0 while their concatenation does not has distance +inf and is reported |
| Ncd.MeanKinds | pyrocs/complex_systems/old/NCDEstimator.py:57 | the mean is nan iff the array is empty or holds nan, and +inf iff it holds +inf and no nan |
| Ncd.NewEstimator | pyrocs/complex_systems/old/NCDEstimator.py:18-20 | error iff nu_splits is negative; otherwise the estimator keeps the splitter and holds nu_splits zeros |
| Ncd.EstimateOf | pyrocs/complex_systems/old/NCDEstimator.py:45-57 | the array keeps one slot per split, the splitter is left with no pair, and the returned values are the estimator's new array |
| Ncd.EstimateSlots | pyrocs/complex_systems/old/NCDEstimator.py:47-56 | slot k holds the distance of the k-th pair the splitter still had; later slots keep their previous value |
| Ncd.EstimateAgain | pyrocs/complex_systems/old/NCDEstimator.py:45-57 | a second estimate on the same estimator writes nothing, reports no warning and returns the first call's values and mean |
| Ncd.Estimate | pyrocs/complex_systems/old/NCDEstimator.py:45-57 | the loop computes exactly the updated estimator and result of `EstimateOf` |
| Ncd.RunSplits | pyrocs/complex_systems/old/NCDEstimator.py:47-56 | running the splitter to its end writes the distance of the k-th remaining pair into slot k, reports exactly the indices above 1, and leaves the splitter drained |
| Ncd.FreshValuesAreOne | pyrocs/complex_systems/old/NCDEstimator.py:9-10 | with sizes as lengths, every split of a fresh splitter over two or more samples has distance 1 |
| Ncd.EstimateIsOne | pyrocs/complex_systems/old/test_NCDEstimator.py:62-81 | with sizes as lengths, a new estimator over a fresh splitter of any kind over two or more samples gives mean 1, all values 1 and no warning |

## Left out

- networkx internals (graph construction, `global_reaching_centrality`, `has_path`, `find_cycle`) are replaced by their definitions on the adjacency matrix. Reachability is bounded breadth-first expansion; components are counted by least member.
- Floating point: every real is exact. Results that differ from the test's printed decimals only in the last bit are not distinguished.
- Weighted GRC and the `weight` / `normalized` options of networkx are not used by the source and are not modelled. Edge weights other than "nonzero" play no part.
- Reaching.GrcIgnoresDirection: invariance under relabelling the nodes (a permutation of the matrix) is not proved. Only invariance under the flag, under transposition and under graphs with the same links is proved.
- Legacy.FallbackIsUndirectedGrc: the meaning of the "half the edges" test is proved only for graphs without self-loops. With self-loops the test compares reciprocated edges with arcs, and loops count once on each side.
- Legacy.OldFeedback: the undirected node test is stated as "the component is not a tree", which is what `find_cycle` decides on an undirected graph. It is not derived from a depth-first search.
- Fluctuation.FluctuationOf: `math.log2` is a parameter with two laws, not the real logarithm. The docstring's leading minus sign is not applied: the code returns the positive sum.
- The `time_axis` argument and numpy arrays with more than one axis: series are one-dimensional sequences. `np.take` is a slice.
- Legacy.NxGraph: only simple `Graph` and `DiGraph` objects over nodes 0..N−1 are modelled. A `MultiGraph` or `MultiDiGraph`, such as `read_graphml` returns for a file with parallel edges, counts each parallel edge in `number_of_edges` and `G.edges`, and a 0/nonzero matrix cannot represent that.
- The compressor-based estimators (`LZMAEstimator.py` and the LZMA functions of `old/metrics.py`) are not part of this model. Only the size-function parameter stands for them.
- `print` output is not modelled. Each warning is kept as a flag or index in the result.
- The rest of `old/metrics.py`, `information_theory`, `biosciences` and plotting are outside the modelled core.

=== FILE: aggregate.dfy ===
/** Sums, maxima and spreads of finite sequences of reals: the arithmetic
    that turns per-node centralities into one hierarchy score. */
module Aggregate {

  function Sum(s: seq<real>): real {
    if |s| == 0 then 0.0 else Sum(s[..|s| - 1]) + s[|s| - 1]
  }

  predicate InUnit(s: seq<real>) {
    forall i :: 0 <= i < |s| ==> 0.0 <= s[i] <= 1.0
  }

  /** 1 when the index z lies inside s. */
  function Hole(s: seq<real>, z: nat): nat {
    if z < |s| then 1 else 0
  }

  /** Entries in [0, 1] with a zero at index z: the sum lies in
      [0, |s| - 1], is 0 exactly when every entry is, and reaches |s| - 1
      exactly when every other entry is 1. */
  lemma {:induction false} SumWithHole(s: seq<real>, z: nat)
    requires InUnit(s) && (z < |s| ==> s[z] == 0.0)
    ensures 0.0 <= Sum(s) <= (|s| - Hole(s, z)) as real
    ensures Sum(s) == 0.0 <==> forall i :: 0 <= i < |s| ==> s[i] == 0.0
    ensures Sum(s) == (|s| - Hole(s, z)) as real <==>
            forall i :: 0 <= i < |s| && i != z ==> s[i] == 1.0
  {
    if |s| > 0 {
      var t := s[..|s| - 1];
      assert forall i :: 0 <= i < |t| ==> t[i] == s[i];
      SumWithHole(t, z);
    }
  }

  /** Nonnegative entries sum to at least any one of them. */
  lemma {:induction false} SumAtLeastEntry(s: seq<real>, k: nat)
    requires k < |s| && forall i :: 0 <= i < |s| ==> 0.0 <= s[i]
    ensures 0.0 <= s[k] <= Sum(s)
  {
    var t := s[..|s| - 1];
    assert forall i :: 0 <= i < |t| ==> t[i] == s[i];
    if k < |t| {
      SumAtLeastEntry(t, k);
    } else if |t| > 0 {
      SumAtLeastEntry(t, 0);
    }
  }

  /** Entries bounded by m sum to at most |s| m, with equality exactly when
      every entry is m. */
  lemma {:induction false} SumBelow(s: seq<real>, m: real)
    requires forall i :: 0 <= i < |s| ==> s[i] <= m
    ensures Sum(s) <= |s| as real * m
    ensures Sum(s) == |s| as real * m <==> forall i :: 0 <= i < |s| ==> s[i] == m
  {
    if |s| > 0 {
      var t := s[..|s| - 1];
      assert forall i :: 0 <= i < |t| ==> t[i] == s[i];
      SumBelow(t, m);
      assert |s| as real * m == |t| as real * m + m;
    }
  }

  // ---------------------------------------------------------------------
  // Ones and halves

  /** The number of entries equal to 1. */
  function Ones(s: seq<real>): nat {
    if |s| == 0 then 0 else Ones(s[..|s| - 1]) + (if s[|s| - 1] == 1.0 then 1 else 0)
  }

  lemma {:induction false} OnesIsCard(s: seq<real>)
    ensures Ones(s) == |set i | 0 <= i < |s| && s[i] == 1.0|
  {
    if |s| > 0 {
      var t := s[..|s| - 1];
      OnesIsCard(t);
      var T := set i | 0 <= i < |t| && t[i] == 1.0;
      var S := set i | 0 <= i < |s| && s[i] == 1.0;
      if s[|s| - 1] == 1.0 {
        assert S == T + {|s| - 1};
      } else {
        assert S == T;
      }
    }
  }

  /** A zero at z and every other entry 1 or 1/2: the ones count fully
      and the rest count half. */
  lemma {:induction false} SumOfOnesAndHalves(s: seq<real>, z: nat)
    requires z < |s| ==> s[z] == 0.0
    requires forall i :: 0 <= i < |s| && i != z ==> s[i] == 1.0 || s[i] == 0.5
    ensures Sum(s) == Ones(s) as real + (|s| - Hole(s, z) - Ones(s)) as real / 2.0
  {
    if |s| > 0 {
      var t := s[..|s| - 1];
      assert forall i :: 0 <= i < |t| ==> t[i] == s[i];
      SumOfOnesAndHalves(t, z);
    }
  }

  // ---------------------------------------------------------------------
  // Maximum, gaps and spread

  function Max(s: seq<real>): (m: real)
    requires |s| >= 1
    ensures forall i :: 0 <= i < |s| ==> s[i] <= m
    ensures exists i :: 0 <= i < |s| && s[i] == m
  {
    if |s| == 1 then s[0]
    else
      var m := Max(s[..|s| - 1]);
      assert forall i :: 0 <= i < |s| - 1 ==> s[..|s| - 1][i] == s[i];
      if s[|s| - 1] > m then s[|s| - 1] else m
  }

  /** The sum of m - s[i]. */
  function Gaps(s: seq<real>, m: real): real {
    if |s| == 0 then 0.0 else Gaps(s[..|s| - 1], m) + (m - s[|s| - 1])
  }

  lemma {:induction false} GapsIsDeficit(s: seq<real>, m: real)
    ensures Gaps(s, m) == |s| as real * m - Sum(s)
  {
    if |s| > 0 {
      GapsIsDeficit(s[..|s| - 1], m);
    }
  }

  /** The mean shortfall from the maximum: the sum of (max - s[i]) over the
      entries, divided by |s| - 1. */
  function Spread(s: seq<real>): (g: real)
    requires |s| >= 2 && InUnit(s)
    ensures 0.0 <= g <= 1.0
    ensures g == 0.0 <==> forall i, j :: 0 <= i < |s| && 0 <= j < |s| ==> s[i] == s[j]
  {
    SpreadRange(s);
    Gaps(s, Max(s)) / (|s| as real - 1.0)
  }

  lemma SpreadRange(s: seq<real>)
    requires |s| >= 2 && InUnit(s)
    ensures 0.0 <= Gaps(s, Max(s)) / (|s| as real - 1.0) <= 1.0
    ensures Gaps(s, Max(s)) / (|s| as real - 1.0) == 0.0 <==>
            forall i, j :: 0 <= i < |s| && 0 <= j < |s| ==> s[i] == s[j]
  {
    var m := Max(s);
    var top :| 0 <= top < |s| && s[top] == m;
    DeficitRange(s, m, top);
    UniformIffAllMax(s, top);
  }

  lemma DeficitRange(s: seq<real>, m: real, top: nat)
    requires |s| >= 2 && InUnit(s) && top < |s| && s[top] == m
    requires forall i :: 0 <= i < |s| ==> s[i] <= m
    ensures 0.0 <= Gaps(s, m) / (|s| as real - 1.0) <= 1.0
    ensures Gaps(s, m) / (|s| as real - 1.0) == 0.0 <==> forall i :: 0 <= i < |s| ==> s[i] == m
  {
    var n := |s| as real;
    GapsIsDeficit(s, m);
    SumBelow(s, m);
    SumAtLeastEntry(s, top);
    SpreadBounds(n, m, Sum(s));
    assert Gaps(s, m) / (n - 1.0) == (n * m - Sum(s)) / (n - 1.0);
  }

  /** All entries are equal exactly when all equal a given entry. */
  lemma UniformIffAllMax(s: seq<real>, top: nat)
    requires top < |s|
    ensures (forall i :: 0 <= i < |s| ==> s[i] == s[top]) <==>
            (forall i, j :: 0 <= i < |s| && 0 <= j < |s| ==> s[i] == s[j])
  {
  }

  /** (n m - t) / (n - 1) lies in [0, 1] when m <= t <= n m and m <= 1, and
      is 0 exactly when t = n m. */
  lemma SpreadBounds(n: real, m: real, t: real)
    requires n >= 2.0 && 0.0 <= m <= 1.0 && m <= t <= n * m
    ensures 0.0 <= (n * m - t) / (n - 1.0) <= 1.0
    ensures (n * m - t) / (n - 1.0) == 0.0 <==> t == n * m
  {
    var g := (n * m - t) / (n - 1.0);
    assert g * (n - 1.0) == n * m - t;
    assert n * m - t <= (n - 1.0) * m;
    assert (n - 1.0) * m <= n - 1.0;
  }
}

=== FILE: causal.dfy ===
/** Cyclomatic complexity, feedback density and causal complexity of a
    system given as an adjacency matrix (row -> column). */
module Causal {
  import opened Graph
  import opened Counts
  import opened Components
  import opened Outcome
  import opened Fractions

  // ---------------------------------------------------------------------
  // Cyclomatic complexity

  /** M = E - N + 2P on the undirected graph of A. */
  function Cyclomatic(A: Matrix): int {
    EdgeCount(A, Undirected) - |A| + 2 * ComponentCount(A)
  }

  function CyclomaticComplexity(A: Matrix): (r: Result<int>)
    ensures r.Err? <==> !IsSquare(A)
    ensures r.Err? ==> r.error == NotSquare
    ensures r.Ok? ==> r.value == EdgeCount(A, Undirected) - |A| + 2 * |ComponentSet(A)|
  {
    ComponentCountIsComponents(A);
    if !IsSquare(A) then Err(NotSquare) else Ok(Cyclomatic(A))
  }

  /** An edgeless N x N matrix has N components and no edges, so M = N. */
  lemma EdgelessCyclomatic(A: Matrix)
    requires IsSquare(A)
    requires forall i, j :: 0 <= i < |A| && 0 <= j < |A| ==> A[i][j] == 0
    ensures CyclomaticComplexity(A) == Ok(|A|)
  {
    NoEdgesIffZero(A);
    EdgelessComponents(A);
  }

  // ---------------------------------------------------------------------
  // Feedback density

  /** The arc u -> v lies on a feedback loop: v reaches u (reflexively). */
  predicate ClosesLoop(A: Matrix, u: nat, v: nat) {
    Arc(A, u, v) && u in ReachSet(A, Directed, v)
  }

  /** A cycle search started at u succeeds: some arc that closes a loop
      starts at a node reachable from u. */
  predicate ReachesCycle(A: Matrix, u: nat) {
    exists w :: w in ReachSet(A, Directed, u) && exists v :: v in Nodes(|A|) && ClosesLoop(A, w, v)
  }

  function RowLoopArcs(A: Matrix, i: nat, m: nat): nat {
    if m == 0 then 0 else RowLoopArcs(A, i, m - 1) + Ind(ClosesLoop(A, i, m - 1))
  }

  function LoopArcsBelow(A: Matrix, n: nat, k: nat): nat {
    if k == 0 then 0 else LoopArcsBelow(A, n, k - 1) + RowLoopArcs(A, k - 1, n)
  }

  /** The cycle-search test as a value, so that the generic counting
      lemmas apply. */
  function CycleTest(A: Matrix): nat -> bool {
    (u: nat) => ReachesCycle(A, u)
  }

  function CycleNodesBelow(A: Matrix, k: nat): nat {
    CountBelow(CycleTest(A), k)
  }

  /** E_loop: arcs whose head reaches their tail. */
  function LoopArcs(A: Matrix): nat {
    LoopArcsBelow(A, |A|, |A|)
  }

  /** N_loop: nodes from which a cycle search succeeds. */
  function CycleNodes(A: Matrix): nat {
    CycleNodesBelow(A, |A|)
  }

  function FeedbackDensity(A: Matrix): (r: Result<real>)
    ensures r.Err? <==> !IsSquare(A) || |A| == 0
    ensures r.Err? && IsSquare(A) ==> r.error == ZeroDivision
    ensures r.Ok? ==> 0.0 <= r.value <= 1.0
  {
    if !IsSquare(A) then Err(NotSquare)
    else if ArcCount(A) + |A| == 0 then Err(ZeroDivision)
    else
      LoopArcsBound(A, |A|, |A|);
      CycleNodesBound(A, |A|);
      Ok(Ratio(LoopArcs(A) + CycleNodes(A), ArcCount(A) + |A|))
  }

  /** a / b for a part a of a positive whole b. */
  function Ratio(a: nat, b: nat): (q: real)
    requires 0 < b && a <= b
    ensures 0.0 <= q <= 1.0
    ensures q == 1.0 <==> a == b
    ensures q == 0.0 <==> a == 0
  {
    ShareBounds(a as real, b as real);
    a as real / b as real
  }

  // ---------------------------------------------------------------------
  // Causal complexity

  function CausalComplexity(A: Matrix): (r: Result<real>)
    ensures r.Err? <==> !IsSquare(A) || |A| == 0
    ensures r.Ok? ==> var M := Cyclomatic(A) as real;
                      M >= 0.0 ==> M <= r.value <= 2.0 * M
  {
    match CyclomaticComplexity(A)
    case Err(e) => Err(e)
    case Ok(m) =>
      match FeedbackDensity(A)
      case Err(e) => Err(e)
      case Ok(d) => Ok(Scaled(m, d))
  }

  /** m (1 + d) for a density d. */
  function Scaled(m: int, d: real): (c: real)
    requires 0.0 <= d <= 1.0
    ensures m >= 0 ==> m as real <= c <= 2.0 * m as real
  {
    assert m >= 0 ==> m as real <= m as real * (1.0 + d) <= 2.0 * m as real by {
      if m >= 0 {
        ScaleBounds(m as real, d);
      }
    }
    m as real * (1.0 + d)
  }

  // ---------------------------------------------------------------------
  // What the loop tests mean

  /** A closed walk through u with at least one arc. */
  ghost predicate OnCycle(A: Matrix, u: nat) {
    exists p :: WalkBetween(A, Directed, p, u, u) && |p| >= 2
  }

  /** The arc test is exactly "v reaches u": the arc is then part of a
      closed walk through u. */
  lemma ClosesLoopMeaning(A: Matrix, u: nat, v: nat)
    ensures ClosesLoop(A, u, v) <==> Arc(A, u, v) && Reaches(A, Directed, v, u)
    ensures ClosesLoop(A, u, v) ==> OnCycle(A, u)
  {
    if Arc(A, u, v) {
      ReachSetIsReaches(A, Directed, v, u);
      if Reaches(A, Directed, v, u) {
        var p :| WalkBetween(A, Directed, p, v, u);
        var c := [u] + p;
        assert c[1..] == p;
        assert WalkBetween(A, Directed, c, u, u);
      }
    }
  }

  /** Every self-loop closes a loop. */
  lemma SelfLoopCloses(A: Matrix, u: nat)
    requires Arc(A, u, u)
    ensures ClosesLoop(A, u, u)
  {
    ReachSetWithinNodes(A, Directed, u);
  }

  lemma CycleGivesLoopArc(A: Matrix, w: nat)
    requires OnCycle(A, w)
    ensures exists v :: v in Nodes(|A|) && ClosesLoop(A, w, v)
  {
    var p :| WalkBetween(A, Directed, p, w, w) && |p| >= 2;
    var v := p[1];
    assert Edge(A, Directed, p[0], p[1]);
    var q := p[1..];
    assert WalkBetween(A, Directed, q, v, w);
    ReachSetIsReaches(A, Directed, v, w);
    assert v in Nodes(|A|) && ClosesLoop(A, w, v);
  }

  /** The node test: a cycle search from u succeeds exactly when u reaches
      (reflexively) a node that lies on a cycle. */
  lemma ReachesCycleMeaning(A: Matrix, u: nat)
    requires u < |A|
    ensures ReachesCycle(A, u) <==> exists w :: Reaches(A, Directed, u, w) && OnCycle(A, w)
  {
    if ReachesCycle(A, u) {
      var w, v :| w in ReachSet(A, Directed, u) && v in Nodes(|A|) && ClosesLoop(A, w, v);
      ReachSetIsReaches(A, Directed, u, w);
      ClosesLoopMeaning(A, w, v);
    }
    if exists w :: Reaches(A, Directed, u, w) && OnCycle(A, w) {
      var w :| Reaches(A, Directed, u, w) && OnCycle(A, w);
      ReachSetIsReaches(A, Directed, u, w);
      CycleGivesLoopArc(A, w);
    }
  }

  /** Every node on a cycle is counted in N_loop. */
  lemma CycleNodeCounts(A: Matrix, u: nat)
    requires u < |A| && OnCycle(A, u)
    ensures ReachesCycle(A, u)
  {
    ReachSetWithinNodes(A, Directed, u);
    CycleGivesLoopArc(A, u);
  }

  /** A node without outgoing arcs (an isolated node in particular) is not
      counted in N_loop. */
  lemma SinkNotCounted(A: Matrix, u: nat)
    requires forall v: nat :: !Arc(A, u, v)
    ensures !ReachesCycle(A, u)
  {
    IsolatedReachSet(A, Directed, u);
  }

  // ---------------------------------------------------------------------
  // Bounds on the counts

  lemma {:induction false} RowLoopArcsBound(A: Matrix, i: nat, m: nat)
    ensures RowLoopArcs(A, i, m) <= RowEdges(A, Directed, i, m)
    ensures RowLoopArcs(A, i, m) == RowEdges(A, Directed, i, m) <==>
            forall j: nat :: j < m && Arc(A, i, j) ==> ClosesLoop(A, i, j)
  {
    if m > 0 {
      RowLoopArcsBound(A, i, m - 1);
    }
  }

  lemma {:induction false} LoopArcsBound(A: Matrix, n: nat, k: nat)
    ensures LoopArcsBelow(A, n, k) <= OrderedEdges(A, Directed, n, k)
    ensures LoopArcsBelow(A, n, k) == OrderedEdges(A, Directed, n, k) <==>
            forall i: nat, j: nat :: i < k && j < n && Arc(A, i, j) ==> ClosesLoop(A, i, j)
  {
    if k > 0 {
      LoopArcsBound(A, n, k - 1);
      RowLoopArcsBound(A, k - 1, n);
    }
  }

  lemma CycleNodesBound(A: Matrix, k: nat)
    ensures CycleNodesBelow(A, k) <= k
    ensures CycleNodesBelow(A, k) == k <==> forall u: nat :: u < k ==> ReachesCycle(A, u)
    ensures CycleNodesBelow(A, k) == 0 <==> forall u: nat :: u < k ==> !ReachesCycle(A, u)
  {
    CountBelowRange(CycleTest(A), k);
    assert forall u: nat :: CycleTest(A)(u) == ReachesCycle(A, u);
  }

  /** D = 1 exactly when every arc closes a loop and a cycle search from
      every node succeeds. */
  lemma FullFeedback(A: Matrix)
    requires IsSquare(A) && |A| > 0
    ensures FeedbackDensity(A) == Ok(1.0) <==>
            (forall i: nat, j: nat :: Arc(A, i, j) ==> ClosesLoop(A, i, j)) &&
            (forall u: nat :: u < |A| ==> ReachesCycle(A, u))
  {
    LoopArcsBound(A, |A|, |A|);
    CycleNodesBound(A, |A|);
  }

  /** D = 0 exactly when the graph has no directed cycle: without cycles no
      arc closes a loop and no cycle search succeeds, and a node on a cycle
      is counted. */
  lemma AcyclicFeedback(A: Matrix)
    requires IsSquare(A) && |A| > 0
    ensures FeedbackDensity(A) == Ok(0.0) <==> forall u: nat :: !OnCycle(A, u)
  {
    if forall u: nat :: !OnCycle(A, u) {
      NoCycleNoFeedback(A);
    } else {
      var u: nat :| OnCycle(A, u);
      CycleFeedback(A, u);
    }
  }

  /** A node on a cycle is counted, so D is positive. */
  lemma CycleFeedback(A: Matrix, u: nat)
    requires IsSquare(A) && |A| > 0 && OnCycle(A, u)
    ensures FeedbackDensity(A) != Ok(0.0)
  {
    var p :| WalkBetween(A, Directed, p, u, u) && |p| >= 2;
    assert Edge(A, Directed, p[0], p[1]);
    CycleNodeCounts(A, u);
    LoopArcsBound(A, |A|, |A|);
    CycleNodesBound(A, |A|);
  }

  lemma NoCycleNoFeedback(A: Matrix)
    requires IsSquare(A) && |A| > 0
    requires forall u: nat :: !OnCycle(A, u)
    ensures FeedbackDensity(A) == Ok(0.0)
  {
    forall i: nat, j: nat | i < |A| && j < |A|
      ensures !ClosesLoop(A, i, j)
    {
      ClosesLoopMeaning(A, i, j);
    }
    forall u: nat | u < |A|
      ensures !ReachesCycle(A, u)
    {
      ReachesCycleMeaning(A, u);
    }
    LoopArcsNone(A, |A|, |A|);
    CycleNodesBound(A, |A|);
  }

  lemma {:induction false} LoopArcsNone(A: Matrix, n: nat, k: nat)
    requires forall i: nat, j: nat :: i < k && j < n ==> !ClosesLoop(A, i, j)
    ensures LoopArcsBelow(A, n, k) == 0
  {
    if k > 0 {
      LoopArcsNone(A, n, k - 1);
      RowLoopArcsNone(A, k - 1, n);
    }
  }

  lemma {:induction false} RowLoopArcsNone(A: Matrix, i: nat, m: nat)
    requires forall j: nat :: j < m ==> !ClosesLoop(A, i, j)
    ensures RowLoopArcs(A, i, m) == 0
  {
    if m > 0 {
      RowLoopArcsNone(A, i, m - 1);
    }
  }

  /** C = M (1 + D) and D = 0 without cycles: C then equals M. */
  lemma AcyclicCausal(A: Matrix)
    requires IsSquare(A) && |A| > 0
    requires forall u: nat :: !OnCycle(A, u)
    ensures CausalComplexity(A) == Ok(Cyclomatic(A) as real)
  {
    AcyclicFeedback(A);
  }
}

=== FILE: causal_examples.dfy ===
/** The four small systems of the causal-complexity test suite, with the
    values the metrics take on them. */
module CausalExamples {
  import opened Graph
  import opened Counts
  import opened Components
  import opened Causal
  import opened Outcome

  /** Two sources feeding one sink. */
  const MatA: Matrix := [[0, 0, 1], [0, 0, 1], [0, 0, 0]]
  /** A transitive triangle: 0 -> 1 -> 2 and 0 -> 2. */
  const MatB: Matrix := [[0, 1, 1], [0, 0, 1], [0, 0, 0]]
  /** The directed 3-cycle 0 -> 1 -> 2 -> 0. */
  const MatC: Matrix := [[0, 1, 0], [0, 0, 1], [1, 0, 0]]
  /** The directed 3-cycle plus an isolated node 3. */
  const MatD: Matrix := [[0, 1, 0, 0], [0, 0, 1, 0], [1, 0, 0, 0], [0, 0, 0, 0]]

  /** A is an n x n matrix whose nonzero entries are exactly the arcs listed.
      The examples are proved for every matrix of a given shape; stating them
      over a parameter keeps the solver from evaluating the constants. */
  ghost predicate Shape(A: Matrix, n: nat, arcs: set<(nat, nat)>) {
    |A| == n && IsSquare(A) && forall u: nat, v: nat :: Arc(A, u, v) <==> (u, v) in arcs
  }

  const ArcsA: set<(nat, nat)> := {(0, 2), (1, 2)}
  const ArcsB: set<(nat, nat)> := {(0, 1), (0, 2), (1, 2)}
  const ArcsC: set<(nat, nat)> := {(0, 1), (1, 2), (2, 0)}
  const ArcsD: set<(nat, nat)> := {(0, 1), (1, 2), (2, 0)}

  // ---------------------------------------------------------------------
  // General facts used by the examples

  /** The last node of a walk from u is reachable from u. */
  lemma WalkReaches(A: Matrix, view: View, p: seq<nat>)
    requires IsWalk(A, view, p) && p[0] < |A|
    ensures p[|p| - 1] in ReachSet(A, view, p[0])
  {
    assert WalkBetween(A, view, p, p[0], p[|p| - 1]);
    ReachSetIsReaches(A, view, p[0], p[|p| - 1]);
  }

  /** Arcs that only go from smaller to larger nodes admit no cycle. */
  lemma UpperTriangularAcyclic(A: Matrix)
    requires forall u: nat, v: nat :: Arc(A, u, v) ==> u < v
    ensures forall u: nat :: !OnCycle(A, u)
  {
    forall u: nat | OnCycle(A, u)
      ensures false
    {
      var p :| WalkBetween(A, Directed, p, u, u) && |p| >= 2;
      WalkIncreases(A, p);
    }
  }

  lemma {:induction false} WalkIncreases(A: Matrix, p: seq<nat>)
    requires forall u: nat, v: nat :: Arc(A, u, v) ==> u < v
    requires IsWalk(A, Directed, p) && |p| >= 2
    ensures p[0] < p[|p| - 1]
    decreases |p|
  {
    assert Arc(A, p[0], p[1]);
    if |p| > 2 {
      WalkIncreases(A, p[1..]);
    }
  }

  /** A walk from v back to u makes the arc u -> v close a loop. */
  lemma ArcCloses(A: Matrix, p: seq<nat>)
    requires IsWalk(A, Directed, p) && p[0] < |A| && Arc(A, p[|p| - 1], p[0])
    ensures ClosesLoop(A, p[|p| - 1], p[0])
  {
    WalkReaches(A, Directed, p);
  }

  /** The tail of a loop-closing arc is found by a search started at it. */
  lemma LoopTailCounts(A: Matrix, u: nat, v: nat)
    requires u < |A| && v < |A| && ClosesLoop(A, u, v)
    ensures ReachesCycle(A, u)
  {
    ReachSetWithinNodes(A, Directed, u);
    assert u in ReachSet(A, Directed, u) && v in Nodes(|A|);
  }

  /** A node joined by a walk to a smaller node leads no component. */
  lemma NotLeader(A: Matrix, p: seq<nat>)
    requires IsWalk(A, Undirected, p) && p[0] < |A| && p[|p| - 1] < p[0]
    ensures !IsLeader(A, p[0])
  {
    WalkReaches(A, Undirected, p);
    var j := p[|p| - 1];
    assert j < p[0] && j in Component(A, p[0]);
  }

  /** The edge counts of small matrices, written out entry by entry. */
  lemma SmallRow(A: Matrix, view: View, i: nat)
    ensures RowEdges(A, view, i, 1) == Ind(Edge(A, view, i, 0))
    ensures RowEdges(A, view, i, 2) == RowEdges(A, view, i, 1) + Ind(Edge(A, view, i, 1))
    ensures RowEdges(A, view, i, 3) == RowEdges(A, view, i, 2) + Ind(Edge(A, view, i, 2))
    ensures RowEdges(A, view, i, 4) == RowEdges(A, view, i, 3) + Ind(Edge(A, view, i, 3))
  {
    assert RowEdges(A, view, i, 0) == 0;
  }

  lemma SmallUnordered(A: Matrix, view: View)
    ensures UnorderedEdges(A, view, 3)
         == RowEdges(A, view, 0, 1) + RowEdges(A, view, 1, 2) + RowEdges(A, view, 2, 3)
    ensures UnorderedEdges(A, view, 4) == UnorderedEdges(A, view, 3) + RowEdges(A, view, 3, 4)
  {
    assert UnorderedEdges(A, view, 1) == RowEdges(A, view, 0, 1);
    assert UnorderedEdges(A, view, 2) == UnorderedEdges(A, view, 1) + RowEdges(A, view, 1, 2);
  }

  lemma SmallOrdered(A: Matrix, view: View)
    ensures OrderedEdges(A, view, 4, 4)
         == RowEdges(A, view, 0, 4) + RowEdges(A, view, 1, 4) + RowEdges(A, view, 2, 4)
            + RowEdges(A, view, 3, 4)
  {
    assert OrderedEdges(A, view, 4, 1) == RowEdges(A, view, 0, 4);
    assert OrderedEdges(A, view, 4, 2) == OrderedEdges(A, view, 4, 1) + RowEdges(A, view, 1, 4);
    assert OrderedEdges(A, view, 4, 3) == OrderedEdges(A, view, 4, 2) + RowEdges(A, view, 2, 4);
  }

  // ---------------------------------------------------------------------
  // The test matrices have the shapes below

  lemma ShapeA()
    ensures Shape(MatA, 3, ArcsA)
  {
    forall u: nat, v: nat
      ensures Arc(MatA, u, v) <==> (u, v) in ArcsA
    {
      if u < 3 && v < 3 {
        assert MatA[u] == [[0, 0, 1], [0, 0, 1], [0, 0, 0]][u];
      }
    }
  }

  lemma ShapeB()
    ensures Shape(MatB, 3, ArcsB)
  {
    forall u: nat, v: nat
      ensures Arc(MatB, u, v) <==> (u, v) in ArcsB
    {
    }
  }

  lemma ShapeC()
    ensures Shape(MatC, 3, ArcsC)
  {
    forall u: nat, v: nat
      ensures Arc(MatC, u, v) <==> (u, v) in ArcsC
    {
    }
  }

  lemma ShapeD()
    ensures Shape(MatD, 4, ArcsD)
  {
    forall u: nat, v: nat
      ensures Arc(MatD, u, v) <==> (u, v) in ArcsD
    {
    }
  }

  // ---------------------------------------------------------------------
  // Two sources feeding one sink: M = 2 - 3 + 2 = 1, D = 0

  lemma ComponentsA(A: Matrix)
    requires Shape(A, 3, ArcsA)
    ensures EdgeCount(A, Undirected) == 2 && ComponentCount(A) == 1
  {
    SmallUnordered(A, Undirected);
    SmallRow(A, Undirected, 0);
    SmallRow(A, Undirected, 1);
    SmallRow(A, Undirected, 2);
    assert UnorderedEdges(A, Undirected, 3) == 2;
    NotLeader(A, [1, 2, 0]);
    NotLeader(A, [2, 0]);
    LeadersOfThree(A);
  }

  /** Three nodes of which only the first leads form one component. */
  lemma LeadersOfThree(A: Matrix)
    requires |A| >= 3 && !IsLeader(A, 1) && !IsLeader(A, 2)
    ensures Leaders(A, 3) == 1
  {
    assert IsLeader(A, 0);
    assert Leaders(A, 1) == 1;
  }

  lemma ExampleA(A: Matrix)
    requires Shape(A, 3, ArcsA)
    ensures CyclomaticComplexity(A) == Ok(1)
    ensures FeedbackDensity(A) == Ok(0.0)
    ensures CausalComplexity(A) == Ok(1.0)
  {
    ComponentsA(A);
    UpperTriangularAcyclic(A);
    AcyclicFeedback(A);
    AcyclicCausal(A);
  }

  // ---------------------------------------------------------------------
  // A transitive triangle: M = 3 - 3 + 2 = 2, D = 0

  lemma ComponentsB(A: Matrix)
    requires Shape(A, 3, ArcsB)
    ensures EdgeCount(A, Undirected) == 3 && ComponentCount(A) == 1
  {
    SmallUnordered(A, Undirected);
    SmallRow(A, Undirected, 0);
    SmallRow(A, Undirected, 1);
    SmallRow(A, Undirected, 2);
    assert UnorderedEdges(A, Undirected, 3) == 3;
    NotLeader(A, [1, 0]);
    NotLeader(A, [2, 0]);
    LeadersOfThree(A);
  }

  lemma ExampleB(A: Matrix)
    requires Shape(A, 3, ArcsB)
    ensures CyclomaticComplexity(A) == Ok(2)
    ensures FeedbackDensity(A) == Ok(0.0)
    ensures CausalComplexity(A) == Ok(2.0)
  {
    ComponentsB(A);
    UpperTriangularAcyclic(A);
    AcyclicFeedback(A);
    AcyclicCausal(A);
  }

  // ---------------------------------------------------------------------
  // The 3-cycle: M = 3 - 3 + 2 = 2, D = 1

  lemma ComponentsC(A: Matrix)
    requires Shape(A, 3, ArcsC)
    ensures EdgeCount(A, Undirected) == 3 && ComponentCount(A) == 1
  {
    SmallUnordered(A, Undirected);
    SmallRow(A, Undirected, 0);
    SmallRow(A, Undirected, 1);
    SmallRow(A, Undirected, 2);
    assert UnorderedEdges(A, Undirected, 3) == 3;
    NotLeader(A, [1, 0]);
    NotLeader(A, [2, 0]);
    LeadersOfThree(A);
  }

  /** Each arc of a 3-cycle closes a loop, so a search from each node
      succeeds at once. */
  lemma CycleLoops(A: Matrix)
    requires |A| >= 3 && Arc(A, 0, 1) && Arc(A, 1, 2) && Arc(A, 2, 0)
    ensures ClosesLoop(A, 0, 1) && ClosesLoop(A, 1, 2) && ClosesLoop(A, 2, 0)
    ensures ReachesCycle(A, 0) && ReachesCycle(A, 1) && ReachesCycle(A, 2)
  {
    ArcCloses(A, [1, 2, 0]);
    ArcCloses(A, [2, 0, 1]);
    ArcCloses(A, [0, 1, 2]);
    LoopTailCounts(A, 0, 1);
    LoopTailCounts(A, 1, 2);
    LoopTailCounts(A, 2, 0);
  }

  lemma LoopsC(A: Matrix)
    requires Shape(A, 3, ArcsC)
    ensures forall i: nat, j: nat :: Arc(A, i, j) ==> ClosesLoop(A, i, j)
    ensures forall u: nat :: u < |A| ==> ReachesCycle(A, u)
  {
    CycleLoops(A);
    ArcsCloseC(A);
    AllReachC(A);
  }

  lemma ArcsCloseC(A: Matrix)
    requires Shape(A, 3, ArcsC)
    requires ClosesLoop(A, 0, 1) && ClosesLoop(A, 1, 2) && ClosesLoop(A, 2, 0)
    ensures forall i: nat, j: nat :: Arc(A, i, j) ==> ClosesLoop(A, i, j)
  {
    forall i: nat, j: nat | Arc(A, i, j)
      ensures ClosesLoop(A, i, j)
    {
      assert (i, j) in ArcsC;
      CycleArc(i, j);
    }
  }

  lemma AllReachC(A: Matrix)
    requires |A| == 3 && ReachesCycle(A, 0) && ReachesCycle(A, 1) && ReachesCycle(A, 2)
    ensures forall u: nat :: u < |A| ==> ReachesCycle(A, u)
  {
    forall u: nat | u < |A|
      ensures ReachesCycle(A, u)
    {
      if u == 0 {
      } else if u == 1 {
      } else {
        assert u == 2;
      }
    }
  }

  /** The arcs of the 3-cycle, one by one. */
  lemma CycleArc(i: nat, j: nat)
    requires (i, j) in {(0, 1), (1, 2), (2, 0)}
    ensures (i == 0 && j == 1) || (i == 1 && j == 2) || (i == 2 && j == 0)
  {
  }

  lemma ExampleC(A: Matrix)
    requires Shape(A, 3, ArcsC)
    ensures CyclomaticComplexity(A) == Ok(2)
    ensures FeedbackDensity(A) == Ok(1.0)
    ensures CausalComplexity(A) == Ok(4.0)
  {
    ComponentsC(A);
    LoopsC(A);
    FullFeedback(A);
  }

  // ---------------------------------------------------------------------
  // The 3-cycle and an isolated node: M = 3 - 4 + 4 = 3, D = 6/7

  lemma EdgesD(A: Matrix)
    requires Shape(A, 4, ArcsD)
    ensures EdgeCount(A, Undirected) == 3 && ArcCount(A) == 3
  {
    SmallUnordered(A, Undirected);
    SmallOrdered(A, Directed);
    SmallRow(A, Undirected, 0);
    SmallRow(A, Undirected, 1);
    SmallRow(A, Undirected, 2);
    SmallRow(A, Undirected, 3);
    SmallRow(A, Directed, 0);
    SmallRow(A, Directed, 1);
    SmallRow(A, Directed, 2);
    SmallRow(A, Directed, 3);
  }

  /** Node 3 is isolated, so it leads a second component. */
  lemma ComponentsD(A: Matrix)
    requires Shape(A, 4, ArcsD)
    ensures ComponentCount(A) == 2
  {
    NotLeader(A, [1, 0]);
    NotLeader(A, [2, 0]);
    LeadersOfThree(A);
    IsolatedD(A);
    assert Leaders(A, 4) == Leaders(A, 3) + Ind(LeaderTest(A)(3));
  }

  /** Node 3 of MatD touches no arc, so it is a component of its own. */
  lemma IsolatedD(A: Matrix)
    requires Shape(A, 4, ArcsD)
    ensures IsLeader(A, 3)
  {
    forall v: nat
      ensures !Edge(A, Undirected, 3, v)
    {
      assert (3, v) !in ArcsD && (v, 3) !in ArcsD;
    }
    IsolatedReachSet(A, Undirected, 3);
  }

  /** All three arcs of the cycle close loops. */
  lemma LoopArcsD(A: Matrix)
    requires Shape(A, 4, ArcsD)
    ensures LoopArcs(A) == 3
  {
    EdgesD(A);
    CycleLoops(A);
    ArcsCloseD(A);
    LoopArcsBound(A, 4, 4);
  }

  lemma ArcsCloseD(A: Matrix)
    requires Shape(A, 4, ArcsD)
    requires ClosesLoop(A, 0, 1) && ClosesLoop(A, 1, 2) && ClosesLoop(A, 2, 0)
    ensures forall i: nat, j: nat :: i < 4 && j < 4 && Arc(A, i, j) ==> ClosesLoop(A, i, j)
  {
    forall i: nat, j: nat | i < 4 && j < 4 && Arc(A, i, j)
      ensures ClosesLoop(A, i, j)
    {
      assert (i, j) in ArcsD;
      CycleArc(i, j);
    }
  }

  /** The search succeeds from the cycle's nodes and fails from the isolated
      node. */
  lemma CycleNodesD(A: Matrix)
    requires Shape(A, 4, ArcsD)
    ensures CycleNodes(A) == 3
  {
    CycleFirst(A);
    SinkD(A);
    assert CycleNodesBelow(A, 4) == CycleNodesBelow(A, 3) + Ind(CycleTest(A)(3));
  }

  lemma SinkD(A: Matrix)
    requires Shape(A, 4, ArcsD)
    ensures !CycleTest(A)(3)
  {
    forall v: nat
      ensures !Arc(A, 3, v)
    {
      assert (3, v) !in ArcsD;
    }
    SinkNotCounted(A, 3);
  }

  /** A 3-cycle on the first three nodes makes them all count. */
  lemma CycleFirst(A: Matrix)
    requires |A| >= 3 && Arc(A, 0, 1) && Arc(A, 1, 2) && Arc(A, 2, 0)
    ensures CycleNodesBelow(A, 3) == 3
  {
    CycleLoops(A);
    CycleNodesBound(A, 3);
  }

  lemma ExampleD(A: Matrix)
    requires Shape(A, 4, ArcsD)
    ensures CyclomaticComplexity(A) == Ok(3)
    ensures FeedbackDensity(A) == Ok(6.0 / 7.0)
    ensures CausalComplexity(A) == Ok(39.0 / 7.0)
  {
    EdgesD(A);
    ComponentsD(A);
    LoopArcsD(A);
    CycleNodesD(A);
  }

  /** The values the test suite expects of the four matrices. */
  lemma TestMatrices()
    ensures CyclomaticComplexity(MatA) == Ok(1) && FeedbackDensity(MatA) == Ok(0.0) && CausalComplexity(MatA) == Ok(1.0)
    ensures CyclomaticComplexity(MatB) == Ok(2) && FeedbackDensity(MatB) == Ok(0.0) && CausalComplexity(MatB) == Ok(2.0)
    ensures CyclomaticComplexity(MatC) == Ok(2) && FeedbackDensity(MatC) == Ok(1.0) && CausalComplexity(MatC) == Ok(4.0)
    ensures CyclomaticComplexity(MatD) == Ok(3) && FeedbackDensity(MatD) == Ok(6.0 / 7.0) && CausalComplexity(MatD) == Ok(39.0 / 7.0)
  {
    ShapeA();
    ExampleA(MatA);
    ShapeB();
    ExampleB(MatB);
    ShapeC();
    ExampleC(MatC);
    ShapeD();
    ExampleD(MatD);
  }

  /** Every edgeless N x N matrix has cyclomatic complexity N. */
  lemma ExampleEdgeless(n: nat)
    ensures CyclomaticComplexity(seq(n, i => seq(n, j => 0))) == Ok(n)
  {
    EdgelessCyclomatic(seq(n, i => seq(n, j => 0)));
  }
}

=== FILE: components.dfy ===
/** Connected components of the undirected reading of a matrix. A component
    is counted at its least node: node i is a leader when no smaller node is
    undirected-connected to it. */
module Components {
  import opened Graph
  import opened Counts

  /** The component of i: everything an undirected walk reaches from i. */
  function Component(A: Matrix, i: nat): set<nat> {
    ReachSet(A, Undirected, i)
  }

  predicate IsLeader(A: Matrix, i: nat) {
    forall j: nat :: j < i ==> j !in Component(A, i)
  }

  /** The leader test as a value, so that the generic counting lemmas apply. */
  function LeaderTest(A: Matrix): nat -> bool {
    (i: nat) => IsLeader(A, i)
  }

  /** The number of leaders among the nodes below k. */
  function Leaders(A: Matrix, k: nat): nat {
    CountBelow(LeaderTest(A), k)
  }

  /** number_connected_components of the undirected graph of A. */
  function ComponentCount(A: Matrix): nat {
    Leaders(A, |A|)
  }

  /** The reference notion: the set of distinct components. */
  ghost function ComponentSet(A: Matrix): set<set<nat>> {
    set i | i in Nodes(|A|) :: Component(A, i)
  }

  // ---------------------------------------------------------------------
  // Undirected reachability is an equivalence

  lemma ReverseWalk(A: Matrix, p: seq<nat>, u: nat, v: nat)
    requires WalkBetween(A, Undirected, p, u, v)
    ensures WalkBetween(A, Undirected, Reverse(p), v, u)
  {
    var r := Reverse(p);
    forall i | 0 <= i < |r| - 1
      ensures Edge(A, Undirected, r[i], r[i + 1])
    {
      var a := |p| - 1 - i;
      assert r[i] == p[a] && r[i + 1] == p[a - 1];
      EdgeSymmetric(A, Undirected, p[a - 1], p[a]);
    }
  }

  function Reverse(p: seq<nat>): (r: seq<nat>)
    ensures |r| == |p|
    ensures forall i :: 0 <= i < |p| ==> r[i] == p[|p| - 1 - i]
  {
    if p == [] then [] else Reverse(p[1..]) + [p[0]]
  }

  lemma JoinWalks(A: Matrix, view: View, p: seq<nat>, q: seq<nat>, u: nat, w: nat, v: nat)
    requires WalkBetween(A, view, p, u, w) && WalkBetween(A, view, q, w, v)
    ensures WalkBetween(A, view, p + q[1..], u, v)
  {
    var r := p + q[1..];
    forall i | 0 <= i < |r| - 1
      ensures Edge(A, view, r[i], r[i + 1])
    {
      if i < |p| - 1 {
        assert r[i] == p[i] && r[i + 1] == p[i + 1];
      } else {
        var j := i - (|p| - 1);
        assert r[i] == q[j] && r[i + 1] == q[j + 1];
      }
    }
  }

  lemma ComponentSymmetric(A: Matrix, i: nat, j: nat)
    requires i < |A| && j in Component(A, i)
    ensures j < |A| && i in Component(A, j)
  {
    ReachSetWithinNodes(A, Undirected, i);
    ReachSetIsReaches(A, Undirected, i, j);
    var p :| WalkBetween(A, Undirected, p, i, j);
    ReverseWalk(A, p, i, j);
    ReachSetIsReaches(A, Undirected, j, i);
  }

  /** Two nodes of one component have the same component. */
  lemma SameComponent(A: Matrix, i: nat, j: nat)
    requires i < |A| && j in Component(A, i)
    ensures Component(A, j) == Component(A, i)
  {
    ComponentSymmetric(A, i, j);
    ReachSetIsReaches(A, Undirected, i, j);
    var p :| WalkBetween(A, Undirected, p, i, j);
    ReverseWalk(A, p, i, j);
    forall v | v in Component(A, j)
      ensures v in Component(A, i)
    {
      ReachSetIsReaches(A, Undirected, j, v);
      var q :| WalkBetween(A, Undirected, q, j, v);
      JoinWalks(A, Undirected, p, q, i, j, v);
      ReachSetIsReaches(A, Undirected, i, v);
    }
    forall v | v in Component(A, i)
      ensures v in Component(A, j)
    {
      ReachSetIsReaches(A, Undirected, i, v);
      var q :| WalkBetween(A, Undirected, q, i, v);
      JoinWalks(A, Undirected, Reverse(p), q, j, i, v);
      ReachSetIsReaches(A, Undirected, j, v);
    }
  }

  // ---------------------------------------------------------------------
  // Leaders are in one-to-one correspondence with components

  /** The leaders below k. */
  ghost function LeaderSet(A: Matrix, k: nat): set<nat> {
    FilterBelow(LeaderTest(A), k)
  }

  lemma LeaderSetMembers(A: Matrix, k: nat)
    ensures forall i: nat :: i in LeaderSet(A, k) <==> i < k && IsLeader(A, i)
  {
    FilterBelowMembers(LeaderTest(A), k);
  }

  lemma LeadersCardinality(A: Matrix, k: nat)
    ensures Leaders(A, k) == |LeaderSet(A, k)|
  {
    CountIsFilterSize(LeaderTest(A), k);
  }

  lemma LeastElement(s: set<nat>) returns (m: nat)
    requires s != {}
    ensures m in s && forall x :: x in s ==> m <= x
  {
    m :| m in s;
    var rest := set x | x in s && x < m;
    while rest != {}
      invariant m in s
      invariant rest == set x | x in s && x < m
      decreases m
    {
      var y :| y in rest;
      m := y;
      rest := set x | x in s && x < m;
    }
    forall x | x in s
      ensures m <= x
    {
      assert x !in rest;
    }
  }

  /** Every component is the component of exactly one leader: its least node. */
  lemma ComponentHasLeader(A: Matrix, i: nat) returns (m: nat)
    requires i < |A|
    ensures m < |A| && IsLeader(A, m) && Component(A, m) == Component(A, i)
  {
    ReachSetWithinNodes(A, Undirected, i);
    m := LeastElement(Component(A, i));
    SameComponent(A, i, m);
  }

  lemma LeadersDistinct(A: Matrix, i: nat, j: nat)
    requires i < |A| && j < |A| && i != j
    requires IsLeader(A, i) && IsLeader(A, j)
    ensures Component(A, i) != Component(A, j)
  {
    ReachSetWithinNodes(A, Undirected, i);
    ReachSetWithinNodes(A, Undirected, j);
  }

  lemma {:induction false} InjectiveImageCard(A: Matrix, L: set<nat>)
    requires forall i :: i in L ==> i < |A| && IsLeader(A, i)
    ensures |set i | i in L :: Component(A, i)| == |L|
    decreases |L|
  {
    if L != {} {
      var x :| x in L;
      var L' := L - {x};
      InjectiveImageCard(A, L');
      var img' := set i | i in L' :: Component(A, i);
      var img := set i | i in L :: Component(A, i);
      assert img == img' + {Component(A, x)};
      if Component(A, x) in img' {
        var y :| y in L' && Component(A, y) == Component(A, x);
        LeadersDistinct(A, x, y);
        assert false;
      }
    }
  }

  /** The leader count is the number of distinct components. */
  lemma ComponentCountIsComponents(A: Matrix)
    ensures ComponentCount(A) == |ComponentSet(A)|
  {
    var n := |A|;
    var L := LeaderSet(A, n);
    LeadersCardinality(A, n);
    LeaderSetMembers(A, n);
    InjectiveImageCard(A, L);
    var img := set i | i in L :: Component(A, i);
    forall c | c in ComponentSet(A)
      ensures c in img
    {
      var i :| i in Nodes(n) && Component(A, i) == c;
      var m := ComponentHasLeader(A, i);
      assert m in L;
    }
    assert img <= ComponentSet(A);
    assert img == ComponentSet(A);
  }

  // ---------------------------------------------------------------------
  // Simple consequences

  /** A nonempty graph has between 1 and N components. */
  lemma ComponentCountRange(A: Matrix)
    ensures ComponentCount(A) <= |A|
    ensures |A| >= 1 ==> ComponentCount(A) >= 1
  {
    CountBelowRange(LeaderTest(A), |A|);
    if |A| >= 1 {
      assert IsLeader(A, 0);
      CountBelowFirst(LeaderTest(A), |A|);
    }
  }

  /** A node with no edge of the view reaches only itself. */
  lemma IsolatedReachSet(A: Matrix, view: View, u: nat)
    requires forall v: nat :: !Edge(A, view, u, v)
    ensures ReachSet(A, view, u) == {u}
  {
    forall k: nat
      ensures Ball(A, view, u, k) == {u}
    {
      IsolatedBall(A, view, u, k);
    }
  }

  lemma {:induction false} IsolatedBall(A: Matrix, view: View, u: nat, k: nat)
    requires forall v: nat :: !Edge(A, view, u, v)
    ensures Ball(A, view, u, k) == {u}
  {
    if k > 0 {
      IsolatedBall(A, view, u, k - 1);
      assert Successors(A, view, {u}) == {};
    }
  }

  /** With no edges every node is its own component. */
  lemma EdgelessComponents(A: Matrix)
    requires forall i: nat, j: nat :: !Arc(A, i, j)
    ensures ComponentCount(A) == |A|
  {
    forall i: nat | i < |A|
      ensures IsLeader(A, i)
    {
      IsolatedReachSet(A, Undirected, i);
    }
    CountBelowRange(LeaderTest(A), |A|);
  }
}

=== FILE: counts.dfy ===
/** Edge counting over the adjacency matrix, as a graph library reports it:
    a directed graph counts every nonzero entry, an undirected graph counts
    every unordered pair {i, j} (self-pairs included) once. */
module Counts {
  import opened Graph

  function Ind(b: bool): nat {
    if b then 1 else 0
  }

  // ---------------------------------------------------------------------
  // Counting the nodes below k that pass a test

  /** How many of the nodes 0 .. k-1 satisfy p. */
  function CountBelow(p: nat -> bool, k: nat): nat {
    if k == 0 then 0 else CountBelow(p, k - 1) + Ind(p(k - 1))
  }

  /** The nodes below k that satisfy p, collected in counting order. */
  ghost function FilterBelow(p: nat -> bool, k: nat): set<nat> {
    if k == 0 then {}
    else if p(k - 1) then FilterBelow(p, k - 1) + {k - 1}
    else FilterBelow(p, k - 1)
  }

  lemma {:induction false} FilterBelowMembers(p: nat -> bool, k: nat)
    ensures forall i: nat :: i in FilterBelow(p, k) <==> i < k && p(i)
  {
    if k > 0 {
      FilterBelowMembers(p, k - 1);
    }
  }

  /** The count is the size of the set it counts. */
  lemma {:induction false} CountIsFilterSize(p: nat -> bool, k: nat)
    ensures CountBelow(p, k) == |FilterBelow(p, k)|
  {
    if k > 0 {
      CountIsFilterSize(p, k - 1);
      FilterBelowStep(p, k);
    }
  }

  lemma FilterBelowStep(p: nat -> bool, k: nat)
    requires k > 0
    ensures |FilterBelow(p, k)| == |FilterBelow(p, k - 1)| + Ind(p(k - 1))
  {
    FilterBelowOut(p, k - 1, k - 1);
  }

  lemma {:induction false} FilterBelowOut(p: nat -> bool, k: nat, x: nat)
    requires x >= k
    ensures x !in FilterBelow(p, k)
  {
    if k > 0 {
      FilterBelowOut(p, k - 1, x);
    }
  }

  /** At most k nodes pass; all of them exactly when every node passes,
      none exactly when no node does. */
  lemma {:induction false} CountBelowRange(p: nat -> bool, k: nat)
    ensures CountBelow(p, k) <= k
    ensures CountBelow(p, k) == k <==> forall i: nat :: i < k ==> p(i)
    ensures CountBelow(p, k) == 0 <==> forall i: nat :: i < k ==> !p(i)
  {
    if k > 0 {
      CountBelowRange(p, k - 1);
    }
  }

  lemma {:induction false} CountBelowFirst(p: nat -> bool, k: nat)
    requires k >= 1 && p(0)
    ensures CountBelow(p, k) >= 1
  {
    if k > 1 {
      CountBelowFirst(p, k - 1);
    }
  }

  /** Number of j < m with an edge i -> j. */
  function RowEdges(A: Matrix, view: View, i: nat, m: nat): nat {
    if m == 0 then 0 else RowEdges(A, view, i, m - 1) + Ind(Edge(A, view, i, m - 1))
  }

  /** Number of i < m with an edge i -> j. */
  function ColEdges(A: Matrix, view: View, j: nat, m: nat): nat {
    if m == 0 then 0 else ColEdges(A, view, j, m - 1) + Ind(Edge(A, view, m - 1, j))
  }

  /** Ordered pairs (i, j) with i < k and j < n joined by an edge. */
  function OrderedEdges(A: Matrix, view: View, n: nat, k: nat): nat {
    if k == 0 then 0 else OrderedEdges(A, view, n, k - 1) + RowEdges(A, view, k - 1, n)
  }

  /** Unordered pairs {i, j} with j <= i < k joined by an edge. */
  function UnorderedEdges(A: Matrix, view: View, k: nat): nat {
    if k == 0 then 0 else UnorderedEdges(A, view, k - 1) + RowEdges(A, view, k - 1, k)
  }

  /** Self-loops at nodes below k. */
  function Loops(A: Matrix, view: View, k: nat): nat {
    if k == 0 then 0 else Loops(A, view, k - 1) + Ind(Edge(A, view, k - 1, k - 1))
  }

  /** The number of nonzero entries: the arc count of a directed graph. */
  function ArcCount(A: Matrix): nat {
    OrderedEdges(A, Directed, |A|, |A|)
  }

  /** number_of_edges of the graph the view builds. */
  function EdgeCount(A: Matrix, view: View): nat {
    if view == Directed then ArcCount(A) else UnorderedEdges(A, view, |A|)
  }

  // ---------------------------------------------------------------------
  // Relations between the counts

  lemma {:induction false} AddColumn(A: Matrix, view: View, m: nat, k: nat)
    ensures OrderedEdges(A, view, m + 1, k) == OrderedEdges(A, view, m, k) + ColEdges(A, view, m, k)
  {
    if k > 0 {
      AddColumn(A, view, m, k - 1);
    }
  }

  lemma {:induction false} SquareStep(A: Matrix, view: View, k: nat)
    ensures OrderedEdges(A, view, k + 1, k + 1)
         == OrderedEdges(A, view, k, k) + ColEdges(A, view, k, k) + RowEdges(A, view, k, k)
            + Ind(Edge(A, view, k, k))
  {
    AddColumn(A, view, k, k);
  }

  lemma {:induction false} ColIsRow(A: Matrix, view: View, j: nat, m: nat)
    requires Symmetric(view)
    ensures ColEdges(A, view, j, m) == RowEdges(A, view, j, m)
  {
    if m > 0 {
      ColIsRow(A, view, j, m - 1);
      EdgeSymmetric(A, view, m - 1, j);
    }
  }

  /** Handshake lemma: in a symmetric view every non-loop edge is seen from
      both ends, so ordered pairs plus loops are twice the unordered pairs. */
  lemma {:induction false} Handshake(A: Matrix, view: View, k: nat)
    requires Symmetric(view)
    ensures OrderedEdges(A, view, k, k) + Loops(A, view, k) == 2 * UnorderedEdges(A, view, k)
  {
    if k > 0 {
      Handshake(A, view, k - 1);
      SquareStep(A, view, k - 1);
      ColIsRow(A, view, k - 1, k - 1);
    }
  }

  lemma {:induction false} LinkRowBounds(A: Matrix, i: nat, m: nat)
    ensures RowEdges(A, Undirected, i, m) <= RowEdges(A, Directed, i, m) + ColEdges(A, Directed, i, m)
    ensures RowEdges(A, Directed, i, m) + ColEdges(A, Directed, i, m) <= 2 * RowEdges(A, Undirected, i, m)
  {
    if m > 0 {
      LinkRowBounds(A, i, m - 1);
    }
  }

  lemma {:induction false} ArcsVersusLinks(A: Matrix, k: nat)
    ensures UnorderedEdges(A, Undirected, k) <= OrderedEdges(A, Directed, k, k)
    ensures OrderedEdges(A, Directed, k, k) <= 2 * UnorderedEdges(A, Undirected, k)
  {
    if k > 0 {
      ArcsVersusLinks(A, k - 1);
      SquareStep(A, Directed, k - 1);
      LinkRowBounds(A, k - 1, k - 1);
    }
  }

  /** A directed graph counts u -> v and v -> u separately, an undirected one
      counts the pair once: the arc count lies between the undirected edge
      count and twice that. */
  lemma ArcCountBounds(A: Matrix)
    ensures EdgeCount(A, Undirected) <= ArcCount(A) <= 2 * EdgeCount(A, Undirected)
  {
    ArcsVersusLinks(A, |A|);
  }

  lemma {:induction false} RowEdgesZero(A: Matrix, view: View, i: nat, m: nat)
    ensures RowEdges(A, view, i, m) == 0 <==> forall j: nat :: j < m ==> !Edge(A, view, i, j)
  {
    if m > 0 {
      RowEdgesZero(A, view, i, m - 1);
    }
  }

  lemma {:induction false} UnorderedEdgesZero(A: Matrix, view: View, k: nat)
    requires Symmetric(view)
    ensures UnorderedEdges(A, view, k) == 0 <==>
            forall i: nat, j: nat :: i < k && j < k ==> !Edge(A, view, i, j)
  {
    if k > 0 {
      UnorderedEdgesZero(A, view, k - 1);
      RowEdgesZero(A, view, k - 1, k);
      if UnorderedEdges(A, view, k) == 0 {
        forall i: nat, j: nat | i < k && j < k
          ensures !Edge(A, view, i, j)
        {
          EdgeSymmetric(A, view, i, j);
          if i < k - 1 && j < k - 1 {
          } else if i == k - 1 {
            assert !Edge(A, view, k - 1, j);
          } else {
            assert !Edge(A, view, k - 1, i);
          }
        }
      }
    }
  }

  /** The undirected graph of A has no edges exactly when every entry of A
      is zero. */
  lemma NoEdgesIffZero(A: Matrix)
    requires IsSquare(A)
    ensures EdgeCount(A, Undirected) == 0 <==>
            forall i, j :: 0 <= i < |A| && 0 <= j < |A| ==> A[i][j] == 0
  {
    UnorderedEdgesZero(A, Undirected, |A|);
    if EdgeCount(A, Undirected) == 0 {
      forall i, j | 0 <= i < |A| && 0 <= j < |A|
        ensures A[i][j] == 0
      {
        assert !Edge(A, Undirected, i, j);
      }
    }
  }

  /** The matrix with rows and columns exchanged. */
  function Transpose(A: Matrix): (T: Matrix)
    requires IsSquare(A)
    ensures IsSquare(T) && |T| == |A|
    ensures forall u: nat, v: nat :: Arc(T, u, v) <==> Arc(A, v, u)
  {
    seq(|A|, i requires 0 <= i < |A| => seq(|A|, j requires 0 <= j < |A| => A[j][i]))
  }

  lemma {:induction false} TransposeRow(A: Matrix, i: nat, m: nat)
    requires IsSquare(A)
    ensures RowEdges(Transpose(A), Undirected, i, m) == RowEdges(A, Undirected, i, m)
  {
    if m > 0 {
      TransposeRow(A, i, m - 1);
    }
  }

  lemma {:induction false} TransposeUnordered(A: Matrix, k: nat)
    requires IsSquare(A)
    ensures UnorderedEdges(Transpose(A), Undirected, k) == UnorderedEdges(A, Undirected, k)
  {
    if k > 0 {
      TransposeUnordered(A, k - 1);
      TransposeRow(A, k - 1, k);
    }
  }

  /** An undirected graph built from A ignores orientation: A and its
      transpose have the same undirected edge count. */
  lemma TransposeKeepsEdgeCount(A: Matrix)
    requires IsSquare(A)
    ensures EdgeCount(Transpose(A), Undirected) == EdgeCount(A, Undirected)
  {
    TransposeUnordered(A, |A|);
  }
}

=== FILE: fluctuation.dfy ===
/** Fluctuation complexity of a symbol sequence: the mean, over adjacent
    pairs (a, b), of the squared base-2 logarithm of freq(a) / freq(b). The
    logarithm is a parameter; the properties that need it assume only
    log(1) = 0 and log(b / a) = -log(a / b) for positive counts a, b. */
module Fluctuation {
  import opened Outcome
  import opened Fractions

  /** log2 as the caller supplies it. */
  type Log = real -> real

  /** The ratio of two counts, as a real. */
  function Frac(a: nat, b: nat): real
    requires b > 0
  {
    a as real / b as real
  }

  ghost predicate LogLaws(lg: Log) {
    lg(1.0) == 0.0 && forall a: nat, b: nat :: a > 0 && b > 0 ==> lg(Frac(b, a)) == -lg(Frac(a, b))
  }

  // ---------------------------------------------------------------------
  // Grouping and counting

  /** For L > 1 the sequence is replaced by its |A| + 1 - L overlapping
      windows of length L (none when L exceeds |A| + 1). */
  function Windows<T>(A: seq<T>, L: nat): (w: seq<seq<T>>)
    requires L > 1
    ensures |w| == if |A| + 1 >= L then |A| + 1 - L else 0
    ensures forall i :: 0 <= i < |w| ==> |w[i]| == L && w[i] == A[i..i + L]
  {
    if |A| + 1 < L then []
    else seq(|A| + 1 - L, i requires 0 <= i < |A| + 1 - L => A[i..i + L])
  }

  /** Consecutive windows overlap in L - 1 symbols. */
  lemma WindowsOverlap<T>(A: seq<T>, L: nat, i: nat)
    requires L > 1 && i + 1 < |Windows(A, L)|
    ensures Windows(A, L)[i][1..] == Windows(A, L)[i + 1][..L - 1]
  {
    var w := Windows(A, L);
    assert w[i][1..] == A[i + 1..i + L];
    assert w[i + 1][..L - 1] == A[i + 1..i + L];
  }

  /** The Counter of A built one symbol at a time, as Counter does. */
  function Tally<S(==,!new)>(A: seq<S>): map<S, nat> {
    if |A| == 0 then map[]
    else
      var f := Tally(A[..|A| - 1]);
      var x := A[|A| - 1];
      f[x := (if x in f then f[x] else 0) + 1]
  }

  /** The tally holds each symbol of A with its number of occurrences. */
  lemma {:induction false} TallyCounts<S(!new)>(A: seq<S>)
    ensures forall x :: x in Tally(A) <==> x in A
    ensures forall x :: x in Tally(A) ==> Tally(A)[x] == multiset(A)[x] && Tally(A)[x] >= 1
  {
    if |A| > 0 {
      var B := A[..|A| - 1];
      var x := A[|A| - 1];
      TallyCounts(B);
      assert A == B + [x];
      assert multiset(A) == multiset(B) + multiset{x};
    }
  }

  /** The Counter of A: every symbol that occurs, with its number of
      occurrences. */
  function Frequencies<S(==,!new)>(A: seq<S>): (f: map<S, nat>)
    ensures forall x :: x in f <==> x in A
    ensures forall x :: x in f ==> f[x] == multiset(A)[x] && f[x] >= 1
  {
    TallyCounts(A);
    Tally(A)
  }

  /** Sequences with the same symbols, as many times each, have the same
      Counter. */
  lemma SameFrequencies<S(!new)>(A: seq<S>, B: seq<S>)
    requires multiset(A) == multiset(B)
    ensures Frequencies(A) == Frequencies(B)
  {
    var fa := Frequencies(A);
    var fb := Frequencies(B);
    forall x
      ensures x in fa <==> x in fb
    {
      assert x in A <==> x in multiset(A);
      assert x in B <==> x in multiset(B);
    }
  }

  /** The sum of the counts of a Counter. */
  ghost function Total<S(!new)>(f: map<S, nat>): nat
    decreases |f.Keys|
  {
    if f.Keys == {} then 0
    else
      var x :| x in f.Keys;
      assert |(f - {x}).Keys| < |f.Keys| by {
        assert (f - {x}).Keys == f.Keys - {x};
      }
      f[x] + Total(f - {x})
  }

  /** The total may be taken apart at any key. */
  lemma TotalRemove<S(!new)>(f: map<S, nat>, y: S)
    requires y in f
    ensures Total(f) == f[y] + Total(f - {y})
    decreases |f.Keys|
  {
    var x :| x in f.Keys && Total(f) == f[x] + Total(f - {x});
    if x != y {
      assert (f - {x}).Keys == f.Keys - {x};
      assert (f - {y}).Keys == f.Keys - {y};
      TotalRemove(f - {x}, y);
      TotalRemove(f - {y}, x);
      assert f - {x} - {y} == f - {y} - {x};
    }
  }

  /** The counts add up to the length of the sequence. */
  lemma FrequenciesTotal<S(!new)>(A: seq<S>)
    ensures Total(Frequencies(A)) == |A|
  {
    TallyTotal(A);
  }

  lemma {:induction false} TallyTotal<S(!new)>(A: seq<S>)
    ensures Total(Tally(A)) == |A|
  {
    if |A| > 0 {
      TallyTotal(A[..|A| - 1]);
      CountOneMore(Tally(A[..|A| - 1]), A[|A| - 1]);
    }
  }

  /** Counting one more occurrence adds one to the total. */
  lemma CountOneMore<S(!new)>(g: map<S, nat>, x: S)
    ensures Total(g[x := (if x in g then g[x] else 0) + 1]) == Total(g) + 1
  {
    var f := g[x := (if x in g then g[x] else 0) + 1];
    TotalRemove(f, x);
    if x in g {
      TotalRemove(g, x);
      assert f - {x} == g - {x};
    } else {
      assert f - {x} == g;
    }
  }

  // ---------------------------------------------------------------------
  // Pair values

  /** (log2(fa / fb))^2 for two occurrence counts. */
  function PairValue(fa: nat, fb: nat, lg: Log): (v: real)
    requires fb > 0
    ensures v >= 0.0
  {
    var r := lg(Frac(fa, fb));
    r * r
  }

  /** Equally frequent symbols contribute nothing. */
  lemma PairValueEqual(fa: nat, lg: Log)
    requires fa > 0 && LogLaws(lg)
    ensures PairValue(fa, fa, lg) == 0.0
  {
    SelfRatio(fa as real);
    assert Frac(fa, fa) == 1.0;
  }

  /** The pair value does not depend on the order of the pair. */
  lemma PairValueSymmetric(fa: nat, fb: nat, lg: Log)
    requires fa > 0 && fb > 0 && LogLaws(lg)
    ensures PairValue(fa, fb, lg) == PairValue(fb, fa, lg)
  {
  }

  /** Every symbol of A has a positive count in f. */
  ghost predicate Counted<S(!new)>(A: seq<S>, f: map<S, nat>) {
    forall x :: x in A ==> x in f && f[x] > 0
  }

  /** The sum of the pair values over the |A| - 1 adjacent pairs. */
  function PairSum<S(==,!new)>(A: seq<S>, f: map<S, nat>, lg: Log): (t: real)
    requires Counted(A, f)
    ensures t >= 0.0
  {
    if |A| < 2 then 0.0
    else PairSum(A[..|A| - 1], f, lg) + PairValue(f[A[|A| - 2]], f[A[|A| - 1]], lg)
  }

  /** The same sum peeled from the front. */
  lemma {:induction false} PairSumFront<S(!new)>(A: seq<S>, f: map<S, nat>, lg: Log)
    requires Counted(A, f) && |A| >= 2
    ensures PairSum(A, f, lg) == PairValue(f[A[0]], f[A[1]], lg) + PairSum(A[1..], f, lg)
  {
    if |A| > 2 {
      var B := A[..|A| - 1];
      PairSumFront(B, f, lg);
      assert B[1..] == A[1..][..|A[1..]| - 1];
    }
  }

  /** Adjacent equally frequent symbols everywhere: the sum is 0. */
  lemma {:induction false} PairSumZero<S(!new)>(A: seq<S>, f: map<S, nat>, lg: Log)
    requires Counted(A, f) && LogLaws(lg)
    requires forall i :: 0 <= i < |A| - 1 ==> f[A[i]] == f[A[i + 1]]
    ensures PairSum(A, f, lg) == 0.0
  {
    if |A| >= 2 {
      PairSumZero(A[..|A| - 1], f, lg);
      PairValueEqual(f[A[|A| - 1]], lg);
    }
  }

  function Reverse<S>(A: seq<S>): (r: seq<S>)
    ensures |r| == |A|
    ensures forall i :: 0 <= i < |A| ==> r[i] == A[|A| - 1 - i]
  {
    if |A| == 0 then [] else Reverse(A[1..]) + [A[0]]
  }

  /** Reading the pairs backwards gives the same sum. */
  lemma {:induction false} PairSumReverse<S(!new)>(A: seq<S>, f: map<S, nat>, lg: Log)
    requires Counted(A, f) && LogLaws(lg)
    ensures Counted(Reverse(A), f)
    ensures PairSum(Reverse(A), f, lg) == PairSum(A, f, lg)
  {
    var R := Reverse(A);
    assert forall x :: x in R ==> x in A;
    if |A| >= 2 {
      var T := A[1..];
      PairSumReverse(T, f, lg);
      assert R[..|R| - 1] == Reverse(T);
      assert R[|R| - 2] == A[1] && R[|R| - 1] == A[0];
      PairValueSymmetric(f[A[1]], f[A[0]], lg);
      PairSumFront(A, f, lg);
    }
  }

  // ---------------------------------------------------------------------
  // The metric

  /** The pairwise mean for an already grouped sequence: the sum divided by
      N - 1. An empty sequence gives 0 / -1 = 0; a single symbol divides by
      zero. */
  function FluctuationOf<S(==,!new)>(A: seq<S>, lg: Log): (r: Result<real>)
    ensures r.Err? <==> |A| == 1
    ensures r.Err? ==> r.error == ZeroDivision
    ensures r.Ok? ==> r.value >= 0.0
    ensures r.Ok? && |A| < 2 ==> r.value == 0.0
  {
    if |A| == 1 then Err(ZeroDivision)
    else if |A| == 0 then Ok(0.0)
    else
      var t := PairSum(A, Frequencies(A), lg);
      Ok(t / (|A| - 1) as real)
  }

  /** fluctuation_complexity(A, L). */
  function FluctuationComplexity<T(==,!new)>(A: seq<T>, L: int, lg: Log): (r: Result<real>)
    ensures r.Err? <==> (if L > 1 then |A| == L else |A| == 1)
    ensures r.Ok? ==> r.value >= 0.0
  {
    if L > 1 then FluctuationOf(Windows(A, L), lg) else FluctuationOf(A, lg)
  }

  /** A sequence whose adjacent symbols are always equally frequent scores
      0; in particular a constant sequence does. */
  lemma BalancedIsZero<S(!new)>(A: seq<S>, lg: Log)
    requires LogLaws(lg) && |A| != 1
    requires forall i :: 0 <= i < |A| - 1 ==> multiset(A)[A[i]] == multiset(A)[A[i + 1]]
    ensures FluctuationOf(A, lg) == Ok(0.0)
  {
    if |A| >= 2 {
      var f := Frequencies(A);
      forall i | 0 <= i < |A| - 1
        ensures f[A[i]] == f[A[i + 1]]
      {
        assert A[i] in A && A[i + 1] in A;
        assert A[i] in f && A[i + 1] in f;
      }
      PairSumZero(A, f, lg);
      assert PairSum(A, f, lg) == 0.0;
      assert FluctuationOf(A, lg) == Ok(0.0 / (|A| - 1) as real);
    }
  }

  lemma ConstantIsZero<S(!new)>(A: seq<S>, lg: Log)
    requires LogLaws(lg) && |A| != 1
    requires forall i :: 0 <= i < |A| ==> A[i] == A[0]
    ensures FluctuationOf(A, lg) == Ok(0.0)
  {
    BalancedIsZero(A, lg);
  }

  /** The alternation a, b, a, b, ... of 2n symbols. */
  function Alternate<S>(a: S, b: S, n: nat): (s: seq<S>)
    ensures |s| == 2 * n
    ensures forall i :: 0 <= i < |s| ==> s[i] == if i % 2 == 0 then a else b
  {
    if n == 0 then [] else Alternate(a, b, n - 1) + [a, b]
  }

  lemma AlternateCounts<S(!new)>(a: S, b: S, n: nat)
    requires a != b
    ensures multiset(Alternate(a, b, n))[a] == n && multiset(Alternate(a, b, n))[b] == n
  {
    if n > 0 {
      var prev := Alternate(a, b, n - 1);
      AlternateCounts(a, b, n - 1);
      assert Alternate(a, b, n) == prev + [a, b];
      assert multiset(prev + [a, b]) == multiset(prev) + multiset{a, b};
    }
  }

  /** A balanced alternation of two symbols scores 0. */
  lemma AlternatingIsZero<S(!new)>(a: S, b: S, n: nat, lg: Log)
    requires LogLaws(lg) && a != b
    ensures FluctuationOf(Alternate(a, b, n), lg) == Ok(0.0)
  {
    AlternateCounts(a, b, n);
    BalancedIsZero(Alternate(a, b, n), lg);
  }

  /** Reversing the sequence does not change the score. */
  lemma ReverseInvariant<S(!new)>(A: seq<S>, lg: Log)
    requires LogLaws(lg)
    ensures FluctuationOf(Reverse(A), lg) == FluctuationOf(A, lg)
  {
    var R := Reverse(A);
    assert multiset(R) == multiset(A) by {
      ReverseMultiset(A);
    }
    SameFrequencies(R, A);
    PairSumReverse(A, Frequencies(A), lg);
  }

  lemma {:induction false} ReverseMultiset<S>(A: seq<S>)
    ensures multiset(Reverse(A)) == multiset(A)
  {
    if |A| > 0 {
      ReverseMultiset(A[1..]);
      assert A == [A[0]] + A[1..];
    }
  }

  // ---------------------------------------------------------------------
  // The memoised computation

  /** The computation as written: a pass over the adjacent pairs that
      caches each pair's value. The cache never changes the result. */
  method ComputeFluctuation<S(==,!new)>(A: seq<S>, lg: Log) returns (r: Result<real>)
    ensures r == FluctuationOf(A, lg)
  {
    var n := |A|;
    if n == 1 {
      return Err(ZeroDivision);
    }
    if n == 0 {
      return Ok(0.0);
    }
    var f := Frequencies(A);
    var cache: map<(S, S), real> := map[];
    var total := 0.0;
    var i := 1;
    while i < n
      invariant 1 <= i <= n
      invariant total == PairSum(A[..i], f, lg)
      invariant forall p :: p in cache ==> p.0 in f && p.1 in f && f[p.1] > 0 &&
                                           cache[p] == PairValue(f[p.0], f[p.1], lg)
    {
      var p := (A[i - 1], A[i]);
      var v;
      if p in cache {
        v := cache[p];
      } else {
        v := PairValue(f[p.0], f[p.1], lg);
        cache := cache[p := v];
      }
      assert A[..i + 1][..i] == A[..i];
      total := total + v;
      i := i + 1;
    }
    assert A[..n] == A;
    r := Ok(total / (n - 1) as real);
  }
}

=== FILE: fractions.dfy ===
/** Facts about real division that the metrics share. Each is proved once,
    on bare reals, so that the nonlinear step never meets the graph or
    counting terms of its callers. */
module Fractions {

  /** A positive real divided by itself is one. */
  lemma SelfRatio(r: real)
    requires r > 0.0
    ensures r / r == 1.0
  {
  }

  /** a / n for a part a of a positive whole n lies in [0, 1], and is 0 or 1
      exactly at the ends. */
  lemma ShareBounds(a: real, n: real)
    requires 0.0 <= a <= n && 0.0 < n
    ensures 0.0 <= a / n <= 1.0
    ensures a / n == 0.0 <==> a == 0.0
    ensures a / n == 1.0 <==> a == n
  {
    assert (a / n) * n == a;
  }

  /** Dividing by a positive m keeps the sign and maps [.., m] into [.., 1]. */
  lemma QuotientBounds(a: real, m: real)
    requires m > 0.0
    ensures a <= m ==> a / m <= 1.0
    ensures 0.0 <= a ==> 0.0 <= a / m
  {
    assert (a / m) * m == a;
  }

  /** For d >= 1, 1 / d is 1 only at d = 1. */
  lemma ReciprocalOne(d: real)
    requires d >= 1.0
    ensures 1.0 / d == 1.0 <==> d == 1.0
  {
    assert (1.0 / d) * d == 1.0;
  }

  /** Scaling m >= 0 by 1 + d with d in [0, 1] lands between m and 2m. */
  lemma ScaleBounds(m: real, d: real)
    requires m >= 0.0 && 0.0 <= d <= 1.0
    ensures m <= m * (1.0 + d) <= 2.0 * m
  {
    assert m * (1.0 + d) == m + m * d;
    assert 0.0 <= m * d <= m;
  }
}

=== FILE: graph.dfy ===
/** The graph model shared by every metric: a square adjacency matrix read
    under one of three views, with breadth-first balls, reachability and
    hop distance defined directly over the matrix. A nonzero entry A[u][v]
    is an arc u -> v; its magnitude is never used. */
module Graph {

  type Matrix = seq<seq<int>>

  predicate IsSquare(A: Matrix) {
    forall i :: 0 <= i < |A| ==> |A[i]| == |A|
  }

  /** How the matrix is read as a graph.
      Directed:   u -> v iff A[u][v] != 0 (a DiGraph).
      Undirected: u - v iff A[u][v] != 0 or A[v][u] != 0 (a Graph).
      Reciprocal: u - v iff both A[u][v] and A[v][u] are nonzero
                  (the undirected copy that keeps only reciprocated arcs). */
  datatype View = Directed | Undirected | Reciprocal

  /** The arc u -> v; false for indices outside the matrix. */
  predicate Arc(A: Matrix, u: nat, v: nat) {
    u < |A| && v < |A| && v < |A[u]| && A[u][v] != 0
  }

  predicate Edge(A: Matrix, view: View, u: nat, v: nat) {
    match view
    case Directed => Arc(A, u, v)
    case Undirected => Arc(A, u, v) || Arc(A, v, u)
    case Reciprocal => Arc(A, u, v) && Arc(A, v, u)
  }

  predicate Symmetric(view: View) {
    view != Directed
  }

  lemma EdgeSymmetric(A: Matrix, view: View, u: nat, v: nat)
    requires Symmetric(view)
    ensures Edge(A, view, u, v) <==> Edge(A, view, v, u)
  {
  }

  /** The node set {0, ..., n-1}. */
  function Nodes(n: nat): (s: set<nat>)
    ensures forall i: nat :: i in s <==> i < n
    ensures |s| == n
  {
    if n == 0 then {} else
      var s := Nodes(n - 1) + {n - 1};
      assert n - 1 !in Nodes(n - 1);
      s
  }

  lemma SubsetCard(s: set<nat>, t: set<nat>)
    requires s <= t
    ensures |s| <= |t|
  {
    assert t == s + (t - s);
  }

  lemma ProperSubsetCard(s: set<nat>, t: set<nat>)
    requires s <= t && s != t
    ensures |s| < |t|
  {
    var x :| x in t && x !in s;
    assert t == s + (t - s);
    assert x in t - s;
  }

  /** Nodes one step from some node of S. */
  function Successors(A: Matrix, view: View, S: set<nat>): set<nat>
  {
    set v | v in Nodes(|A|) && exists u :: u in S && Edge(A, view, u, v)
  }

  /** The breadth-first ball: nodes at most k steps from u. */
  function Ball(A: Matrix, view: View, u: nat, k: nat): set<nat>
  {
    if k == 0 then {u}
    else
      var B := Ball(A, view, u, k - 1);
      B + Successors(A, view, B)
  }

  /** Everything reachable from u (u included): the ball of radius |A|. */
  function ReachSet(A: Matrix, view: View, u: nat): set<nat>
  {
    Ball(A, view, u, |A|)
  }

  // ---------------------------------------------------------------------
  // Walks: the reference notion of reachability

  /** A walk is a nonempty node sequence whose consecutive nodes are joined
      by an edge of the view. A single node is a walk of length 0. */
  ghost predicate IsWalk(A: Matrix, view: View, p: seq<nat>) {
    |p| > 0 && forall i :: 0 <= i < |p| - 1 ==> Edge(A, view, p[i], p[i + 1])
  }

  ghost predicate WalkBetween(A: Matrix, view: View, p: seq<nat>, u: nat, v: nat) {
    IsWalk(A, view, p) && p[0] == u && p[|p| - 1] == v
  }

  /** A walk from u to v with at most k edges exists. */
  ghost predicate ReachesWithin(A: Matrix, view: View, u: nat, v: nat, k: nat) {
    exists p :: WalkBetween(A, view, p, u, v) && |p| <= k + 1
  }

  /** Reflexive reachability: a walk (possibly of length 0) from u to v. */
  ghost predicate Reaches(A: Matrix, view: View, u: nat, v: nat) {
    exists p :: WalkBetween(A, view, p, u, v)
  }

  lemma ExtendWalk(A: Matrix, view: View, p: seq<nat>, u: nat, w: nat, v: nat)
    requires WalkBetween(A, view, p, u, w) && Edge(A, view, w, v)
    ensures WalkBetween(A, view, p + [v], u, v)
  {
  }

  lemma BallMonotone(A: Matrix, view: View, u: nat, j: nat, k: nat)
    requires j <= k
    ensures Ball(A, view, u, j) <= Ball(A, view, u, k)
    decreases k - j
  {
    if j < k {
      BallMonotone(A, view, u, j, k - 1);
    }
  }

  lemma BallWithinNodes(A: Matrix, view: View, u: nat, k: nat)
    requires u < |A|
    ensures Ball(A, view, u, k) <= Nodes(|A|)
  {
    if k > 0 {
      BallWithinNodes(A, view, u, k - 1);
    }
  }

  lemma {:induction false} BallSound(A: Matrix, view: View, u: nat, v: nat, k: nat)
    requires v in Ball(A, view, u, k)
    ensures ReachesWithin(A, view, u, v, k)
    decreases k
  {
    if k == 0 {
      assert WalkBetween(A, view, [u], u, v);
    } else {
      var B := Ball(A, view, u, k - 1);
      if v in B {
        BallSound(A, view, u, v, k - 1);
        ReachesWithinMore(A, view, u, v, k);
      } else {
        var w := SuccessorSource(A, view, B, v);
        BallSound(A, view, u, w, k - 1);
        ReachesWithinStep(A, view, u, w, v, k);
      }
    }
  }

  /** A node of Successors(S) has an in-neighbour in S. */
  lemma SuccessorSource(A: Matrix, view: View, S: set<nat>, v: nat) returns (w: nat)
    requires v in Successors(A, view, S)
    ensures w in S && Edge(A, view, w, v)
  {
    w :| w in S && Edge(A, view, w, v);
  }

  lemma ReachesWithinMore(A: Matrix, view: View, u: nat, v: nat, k: nat)
    requires k > 0 && ReachesWithin(A, view, u, v, k - 1)
    ensures ReachesWithin(A, view, u, v, k)
  {
    var p :| WalkBetween(A, view, p, u, v) && |p| <= k;
  }

  lemma ReachesWithinStep(A: Matrix, view: View, u: nat, w: nat, v: nat, k: nat)
    requires k > 0 && ReachesWithin(A, view, u, w, k - 1) && Edge(A, view, w, v)
    ensures ReachesWithin(A, view, u, v, k)
  {
    var p :| WalkBetween(A, view, p, u, w) && |p| <= k;
    ExtendWalk(A, view, p, u, w, v);
    assert |p + [v]| <= k + 1;
  }

  lemma {:induction false} BallComplete(A: Matrix, view: View, u: nat, v: nat, k: nat)
    requires ReachesWithin(A, view, u, v, k)
    ensures v in Ball(A, view, u, k)
    decreases k
  {
    var p :| WalkBetween(A, view, p, u, v) && |p| <= k + 1;
    if k == 0 {
      assert p[0] == p[|p| - 1];
    } else if |p| <= k {
      BallComplete(A, view, u, v, k - 1);
      BallMonotone(A, view, u, k - 1, k);
    } else {
      var q := p[..k];
      var w := p[k - 1];
      assert WalkBetween(A, view, q, u, w);
      BallComplete(A, view, u, w, k - 1);
      assert Edge(A, view, w, v);
      assert v in Successors(A, view, Ball(A, view, u, k - 1));
    }
  }

  /** Ball(k) is exactly the set of nodes some walk of at most k edges
      reaches from u: breadth-first search is sound and complete. */
  lemma BallIsWalkBound(A: Matrix, view: View, u: nat, v: nat, k: nat)
    ensures v in Ball(A, view, u, k) <==> ReachesWithin(A, view, u, v, k)
  {
    if v in Ball(A, view, u, k) {
      BallSound(A, view, u, v, k);
    }
    if ReachesWithin(A, view, u, v, k) {
      BallComplete(A, view, u, v, k);
    }
  }

  /** Once a ball stops growing it never grows again. */
  lemma BallStaysStable(A: Matrix, view: View, u: nat, j: nat, k: nat)
    requires j <= k
    requires Ball(A, view, u, j + 1) == Ball(A, view, u, j)
    ensures Ball(A, view, u, k) == Ball(A, view, u, j)
  {
    var f := (i: nat) => Ball(A, view, u, i);
    var g := (S: set<nat>) => S + Successors(A, view, S);
    forall i: nat
      ensures f(i + 1) == g(f(i))
    {
      BallNext(A, view, u, i);
    }
    StableChain(f, g, j, k);
  }

  /** An iteration that repeats a value once keeps it for ever; stated for
      any step function, so that no ball is unfolded while proving it. */
  lemma {:induction false} StableChain(f: nat -> set<nat>, g: set<nat> -> set<nat>, j: nat, k: nat)
    requires forall i: nat :: f(i + 1) == g(f(i))
    requires j <= k && f(j + 1) == f(j)
    ensures f(k) == f(j)
    decreases k - j
  {
    if j < k {
      StableChain(f, g, j, k - 1);
      assert f(k) == g(f(k - 1));
      assert f(j + 1) == g(f(j));
    }
  }

  lemma BallNext(A: Matrix, view: View, u: nat, i: nat)
    ensures Ball(A, view, u, i + 1) == Ball(A, view, u, i) + Successors(A, view, Ball(A, view, u, i))
  {
  }

  /** The ball still gains a node in step j + 1. */
  predicate BallGrows(A: Matrix, view: View, u: nat, j: nat) {
    Ball(A, view, u, j) != Ball(A, view, u, j + 1)
  }

  /** The ball gains a node in each of the first k steps. */
  ghost predicate GrowsUpTo(A: Matrix, view: View, u: nat, k: nat) {
    forall j: nat :: j < k ==> BallGrows(A, view, u, j)
  }

  /** A growing step adds at least one node. */
  lemma BallCardStep(A: Matrix, view: View, u: nat, k: nat)
    requires k > 0 && GrowsUpTo(A, view, u, k)
    ensures GrowsUpTo(A, view, u, k - 1)
    ensures |Ball(A, view, u, k - 1)| < |Ball(A, view, u, k)|
  {
    assert BallGrows(A, view, u, k - 1);
    BallMonotone(A, view, u, k - 1, k);
    ProperSubsetCard(Ball(A, view, u, k - 1), Ball(A, view, u, k));
  }

  /** A ball that keeps growing has at least k + 1 elements at radius k. */
  lemma GrowingBallSize(A: Matrix, view: View, u: nat, k: nat)
    requires GrowsUpTo(A, view, u, k)
    ensures |Ball(A, view, u, k)| >= k + 1
  {
    if k > 0 {
      BallCardStep(A, view, u, k);
      GrowingBallSize(A, view, u, k - 1);
    }
  }

  /** The ball of radius |A| is closed under taking successors. */
  lemma ReachSetClosed(A: Matrix, view: View, u: nat)
    requires u < |A|
    ensures Successors(A, view, ReachSet(A, view, u)) <= ReachSet(A, view, u)
    ensures Ball(A, view, u, |A| + 1) == ReachSet(A, view, u)
  {
    var n := |A|;
    if GrowsUpTo(A, view, u, n) {
      GrowingBallSize(A, view, u, n);
      BallWithinNodes(A, view, u, n);
      SubsetCard(Ball(A, view, u, n), Nodes(n));
      assert false;
    }
    var j: nat :| j < n && !BallGrows(A, view, u, j);
    BallStaysStable(A, view, u, j, n);
    BallStaysStable(A, view, u, j, n + 1);
  }

  lemma {:induction false} ClosedSetHoldsWalks(A: Matrix, view: View, S: set<nat>, p: seq<nat>)
    requires Successors(A, view, S) <= S
    requires IsWalk(A, view, p) && p[0] in S
    ensures p[|p| - 1] in S
    decreases |p|
  {
    if |p| > 1 {
      var q := p[..|p| - 1];
      assert IsWalk(A, view, q);
      ClosedSetHoldsWalks(A, view, S, q);
      assert Edge(A, view, q[|q| - 1], p[|p| - 1]);
    }
  }

  /** ReachSet is exactly reflexive reachability along walks. */
  lemma ReachSetIsReaches(A: Matrix, view: View, u: nat, v: nat)
    requires u < |A|
    ensures v in ReachSet(A, view, u) <==> Reaches(A, view, u, v)
  {
    BallIsWalkBound(A, view, u, v, |A|);
    if Reaches(A, view, u, v) {
      var p :| WalkBetween(A, view, p, u, v);
      ReachSetClosed(A, view, u);
      ReachSetWithinNodes(A, view, u);
      ClosedSetHoldsWalks(A, view, ReachSet(A, view, u), p);
    }
  }

  lemma ReachSetWithinNodes(A: Matrix, view: View, u: nat)
    requires u < |A|
    ensures u in ReachSet(A, view, u)
    ensures ReachSet(A, view, u) <= Nodes(|A|)
    ensures 1 <= |ReachSet(A, view, u)| <= |A|
  {
    BallMonotone(A, view, u, 0, |A|);
    BallWithinNodes(A, view, u, |A|);
    SubsetCard(ReachSet(A, view, u), Nodes(|A|));
  }

  // ---------------------------------------------------------------------
  // Hop distance

  function DistFrom(A: Matrix, view: View, u: nat, v: nat, k: nat): (d: nat)
    requires k <= |A| && v in ReachSet(A, view, u)
    requires forall j: nat :: j < k ==> v !in Ball(A, view, u, j)
    ensures k <= d <= |A|
    ensures v in Ball(A, view, u, d)
    ensures forall j: nat :: j < d ==> v !in Ball(A, view, u, j)
    decreases |A| - k
  {
    if v in Ball(A, view, u, k) then k else DistFrom(A, view, u, v, k + 1)
  }

  /** Breadth-first hop distance from u to a reachable v. */
  function Dist(A: Matrix, view: View, u: nat, v: nat): (d: nat)
    requires v in ReachSet(A, view, u)
    ensures d <= |A|
  {
    DistFrom(A, view, u, v, 0)
  }

  /** The hop distance is the length of a shortest walk: some walk of Dist
      edges exists, and none shorter. */
  lemma DistIsShortestWalk(A: Matrix, view: View, u: nat, v: nat)
    requires v in ReachSet(A, view, u)
    ensures ReachesWithin(A, view, u, v, Dist(A, view, u, v))
    ensures forall k: nat :: k < Dist(A, view, u, v) ==> !ReachesWithin(A, view, u, v, k)
  {
    var d := Dist(A, view, u, v);
    BallIsWalkBound(A, view, u, v, d);
    forall k: nat | k < d
      ensures !ReachesWithin(A, view, u, v, k)
    {
      BallIsWalkBound(A, view, u, v, k);
    }
  }

  lemma DistZeroIffSame(A: Matrix, view: View, u: nat, v: nat)
    requires v in ReachSet(A, view, u)
    ensures Dist(A, view, u, v) == 0 <==> v == u
  {
    if v == u {
      assert v in Ball(A, view, u, 0);
    }
  }
}

=== FILE: legacy.dfy ===
/** The earlier graph-object versions of the complexity metrics. They take
    a graph that is either directed or undirected, count its edges as the
    graph itself counts them, and return the intermediate counts alongside
    the score. The hierarchy score falls back to the reciprocated
    undirected graph when a directed graph looks as if it was meant to be
    undirected. */
module Legacy {
  import opened Graph
  import opened Counts
  import opened Components
  import opened Causal
  import opened Reaching
  import opened Outcome

  /** A graph object: its adjacency matrix and whether it is a DiGraph. */
  datatype NxGraph = NxGraph(adj: Matrix, directed: bool)

  /** How the graph object reads its own matrix. */
  function ViewOf(G: NxGraph): View {
    if G.directed then Directed else Undirected
  }

  // ---------------------------------------------------------------------
  // Cyclomatic complexity

  /** M = E - N + 2P with E counted on G as given and P on its undirected
      copy. */
  function OldCyclomatic(G: NxGraph): (r: Result<int>)
    ensures r.Err? <==> !IsSquare(G.adj)
    ensures r.Ok? ==>
              r.value == EdgeCount(G.adj, ViewOf(G)) - |G.adj| + 2 * |ComponentSet(G.adj)|
  {
    ComponentCountIsComponents(G.adj);
    if !IsSquare(G.adj) then Err(NotSquare)
    else Ok(EdgeCount(G.adj, ViewOf(G)) - |G.adj| + 2 * ComponentCount(G.adj))
  }

  /** On an undirected graph the legacy and the matrix versions agree. */
  lemma OldCyclomaticUndirected(G: NxGraph)
    requires !G.directed
    ensures OldCyclomatic(G) == CyclomaticComplexity(G.adj)
  {
  }

  /** On a directed graph each reciprocated pair counts twice, so the
      legacy value is at least the matrix value and exceeds it by at most
      the number of undirected edges. */
  lemma OldCyclomaticDirected(G: NxGraph)
    requires G.directed && IsSquare(G.adj)
    ensures Cyclomatic(G.adj) <= OldCyclomatic(G).value
    ensures OldCyclomatic(G).value <= Cyclomatic(G.adj) + EdgeCount(G.adj, Undirected)
  {
    ArcCountBounds(G.adj);
  }

  // ---------------------------------------------------------------------
  // Feedback density

  /** Unordered edges {i, j} (j <= i < k) whose larger end i lies in S. */
  function EdgesWithin(A: Matrix, S: set<nat>, k: nat): nat {
    if k == 0 then 0
    else EdgesWithin(A, S, k - 1) + (if k - 1 in S then RowEdges(A, Undirected, k - 1, k) else 0)
  }

  /** A cycle search on an undirected graph started at u succeeds exactly
      when u's component is not a tree: it has at least as many edges
      (self-loops included) as nodes. */
  predicate InCyclicComponent(A: Matrix, u: nat) {
    EdgesWithin(A, Component(A, u), |A|) >= |Component(A, u)|
  }

  /** The undirected node test, as a function the generic counting lemmas
      apply to. */
  function CyclicTest(A: Matrix): nat -> bool {
    (u: nat) => InCyclicComponent(A, u)
  }

  /** The nodes below k whose component holds a cycle. */
  function CyclicBelow(A: Matrix, k: nat): (c: nat)
    ensures c <= k
  {
    CountBelowRange(CyclicTest(A), k);
    CountBelow(CyclicTest(A), k)
  }

  /** The density with its two loop counts. */
  datatype Feedback = Feedback(density: real, loopEdges: nat, loopNodes: nat)

  /** feedback_density(G): (E_loop + N_loop) / (E + N). In a directed graph
      an arc counts when its head reaches its tail and a node counts when a
      cycle search from it succeeds. In an undirected graph every edge can
      be walked back, so every edge counts, and a node counts when its
      component holds a cycle. */
  function OldFeedback(G: NxGraph): (r: Result<Feedback>)
    ensures r.Err? <==> !IsSquare(G.adj) || |G.adj| == 0
    ensures r.Err? && IsSquare(G.adj) ==> r.error == ZeroDivision
    ensures r.Ok? ==> 0.0 <= r.value.density <= 1.0
    ensures r.Ok? ==> r.value.loopEdges <= EdgeCount(G.adj, ViewOf(G)) && r.value.loopNodes <= |G.adj|
    ensures r.Ok? ==>
              (r.value.density == 1.0 <==>
               r.value.loopEdges == EdgeCount(G.adj, ViewOf(G)) && r.value.loopNodes == |G.adj|)
  {
    var A := G.adj;
    var n := |A|;
    if !IsSquare(A) then Err(NotSquare)
    else if EdgeCount(A, ViewOf(G)) + n == 0 then Err(ZeroDivision)
    else if G.directed then
      LoopArcsBound(A, n, n);
      CycleNodesBound(A, n);
      Ok(Feedback(Ratio(LoopArcs(A) + CycleNodes(A), ArcCount(A) + n), LoopArcs(A), CycleNodes(A)))
    else
      var e := EdgeCount(A, Undirected);
      Ok(Feedback(Ratio(e + CyclicBelow(A, n), e + n), e, CyclicBelow(A, n)))
  }

  /** On a directed graph the legacy density is the matrix density. */
  lemma OldFeedbackDirected(G: NxGraph)
    requires G.directed
    ensures OldFeedback(G).Err? <==> FeedbackDensity(G.adj).Err?
    ensures OldFeedback(G).Ok? ==> OldFeedback(G).value.density == FeedbackDensity(G.adj).value
  {
  }

  /** The counts feedback_density returns. On a directed graph they are the
      matrix version's loop arcs and cycle-reaching nodes. On an undirected
      graph every edge passes the walk-back test and all are counted, the
      node count is full (empty) exactly when every (no) component holds a
      cycle, and D = 0 exactly when there is no edge. */
  lemma OldFeedbackCounts(G: NxGraph)
    requires IsSquare(G.adj) && |G.adj| > 0
    ensures OldFeedback(G).Ok?
    ensures G.directed ==>
              OldFeedback(G).value.loopEdges == LoopArcs(G.adj) &&
              OldFeedback(G).value.loopNodes == CycleNodes(G.adj)
    ensures !G.directed ==>
              OldFeedback(G).value.loopEdges == EdgeCount(G.adj, Undirected) &&
              forall u: nat, v: nat :: Edge(G.adj, Undirected, u, v) ==> u in ReachSet(G.adj, Undirected, v)
    ensures !G.directed ==>
              (OldFeedback(G).value.loopNodes == |G.adj| <==>
               forall u: nat :: u < |G.adj| ==> InCyclicComponent(G.adj, u))
    ensures !G.directed ==>
              (OldFeedback(G).value.loopNodes == 0 <==>
               forall u: nat :: u < |G.adj| ==> !InCyclicComponent(G.adj, u))
    ensures !G.directed ==>
              (OldFeedback(G).value.density == 0.0 <==> EdgeCount(G.adj, Undirected) == 0)
  {
    if !G.directed {
      UndirectedFeedbackCounts(G.adj);
    }
  }

  /** The undirected half of OldFeedbackCounts, on the matrix itself. */
  lemma UndirectedFeedbackCounts(A: Matrix)
    requires IsSquare(A) && |A| > 0
    ensures forall u: nat, v: nat :: Edge(A, Undirected, u, v) ==> u in ReachSet(A, Undirected, v)
    ensures CyclicBelow(A, |A|) == |A| <==> forall u: nat :: u < |A| ==> InCyclicComponent(A, u)
    ensures CyclicBelow(A, |A|) == 0 <==> forall u: nat :: u < |A| ==> !InCyclicComponent(A, u)
    ensures EdgeCount(A, Undirected) == 0 ==> CyclicBelow(A, |A|) == 0
  {
    forall u: nat, v: nat | Edge(A, Undirected, u, v)
      ensures u in ReachSet(A, Undirected, v)
    {
      EdgeWalksBack(A, u, v);
    }
    CountBelowRange(CyclicTest(A), |A|);
    assert forall u: nat :: CyclicTest(A)(u) == InCyclicComponent(A, u);
    if EdgeCount(A, Undirected) == 0 {
      NoCyclesWithoutEdges(A);
    }
  }

  /** Without edges every node is alone and loop-free, so no component holds
      a cycle. */
  lemma NoCyclesWithoutEdges(A: Matrix)
    requires IsSquare(A) && EdgeCount(A, Undirected) == 0
    ensures CyclicBelow(A, |A|) == 0
  {
    UnorderedEdgesZero(A, Undirected, |A|);
    forall u: nat | u < |A|
      ensures !CyclicTest(A)(u)
    {
      LoneNodeCycles(A, u);
      assert !Edge(A, Undirected, u, u);
    }
    CountBelowRange(CyclicTest(A), |A|);
  }

  /** Why every undirected edge counts: its far end walks back along it. */
  lemma EdgeWalksBack(A: Matrix, u: nat, v: nat)
    requires Edge(A, Undirected, u, v)
    ensures u in ReachSet(A, Undirected, v)
  {
    EdgeSymmetric(A, Undirected, u, v);
    var p := [v, u];
    assert WalkBetween(A, Undirected, p, v, u);
    ReachSetIsReaches(A, Undirected, v, u);
  }

  lemma {:induction false} EdgesWithinSingle(A: Matrix, u: nat, k: nat)
    ensures EdgesWithin(A, {u}, k) == if u < k then RowEdges(A, Undirected, u, u + 1) else 0
  {
    if k > 0 {
      EdgesWithinSingle(A, u, k - 1);
    }
  }

  /** A node whose only link is to itself has the ball {u}. */
  lemma {:induction false} LoneBall(A: Matrix, u: nat, k: nat)
    requires forall v: nat :: v != u ==> !Edge(A, Undirected, u, v)
    ensures Ball(A, Undirected, u, k) == {u}
  {
    if k > 0 {
      LoneBall(A, u, k - 1);
      LoneSuccessors(A, u);
    }
  }

  lemma LoneSuccessors(A: Matrix, u: nat)
    requires forall v: nat :: v != u ==> !Edge(A, Undirected, u, v)
    ensures Successors(A, Undirected, {u}) <= {u}
  {
  }

  /** An undirected node without links is not counted; one whose only link
      is a self-loop is. */
  lemma LoneNodeCycles(A: Matrix, u: nat)
    requires u < |A| && forall v: nat :: v != u ==> !Edge(A, Undirected, u, v)
    ensures InCyclicComponent(A, u) <==> Arc(A, u, u)
  {
    LoneBall(A, u, |A|);
    EdgesWithinSingle(A, u, |A|);
    RowEdgesZero(A, Undirected, u, u);
    assert RowEdges(A, Undirected, u, u + 1) == Ind(Arc(A, u, u));
  }

  // ---------------------------------------------------------------------
  // Causal complexity

  /** The record causal_complexity(G) returns. */
  datatype Intricacy = Intricacy(nodes: nat, edges: nat, cyclomatic: int, feedback: real,
                                 feedbackEdges: nat, feedbackNodes: nat, causal: real)

  function OldCausal(G: NxGraph): (r: Result<Intricacy>)
    ensures r.Err? <==> !IsSquare(G.adj) || |G.adj| == 0
    ensures r.Ok? ==> r.value.nodes == |G.adj| && r.value.edges == EdgeCount(G.adj, ViewOf(G))
    ensures r.Ok? ==> OldCyclomatic(G) == Ok(r.value.cyclomatic)
    ensures r.Ok? ==>
              OldFeedback(G) == Ok(Feedback(r.value.feedback, r.value.feedbackEdges, r.value.feedbackNodes))
    ensures r.Ok? && r.value.cyclomatic >= 0 ==>
              r.value.cyclomatic as real <= r.value.causal <= 2.0 * r.value.cyclomatic as real
  {
    match OldCyclomatic(G)
    case Err(e) => Err(e)
    case Ok(m) =>
      match OldFeedback(G)
      case Err(e) => Err(e)
      case Ok(fb) =>
        Ok(Intricacy(|G.adj|, EdgeCount(G.adj, ViewOf(G)), m, fb.density,
                     fb.loopEdges, fb.loopNodes, Scaled(m, fb.density)))
  }

  /** On a directed graph the legacy causal complexity is at least the
      matrix one: the density is the same and M is at least as large. */
  lemma OldCausalDirected(G: NxGraph)
    requires G.directed
    ensures OldCausal(G).Err? <==> CausalComplexity(G.adj).Err?
    ensures OldCausal(G).Ok? ==> CausalComplexity(G.adj).value <= OldCausal(G).value.causal
  {
    OldFeedbackDirected(G);
    if OldCausal(G).Ok? {
      var A := G.adj;
      OldCyclomaticDirected(G);
      var d := FeedbackDensity(A).value;
      assert CausalComplexity(A).value == Scaled(Cyclomatic(A), d);
      assert OldCausal(G).value.causal == Scaled(OldCyclomatic(G).value, d);
      ScaledMonotone(Cyclomatic(A), OldCyclomatic(G).value, d);
    }
  }

  lemma ScaledMonotone(m: int, m': int, d: real)
    requires m <= m' && 0.0 <= d <= 1.0
    ensures Scaled(m, d) <= Scaled(m', d)
  {
    assert (m' - m) as real * (1.0 + d) >= 0.0;
  }

  // ---------------------------------------------------------------------
  // Hierarchy

  /** The score and the two warnings hierarchy(G) may print. */
  datatype Hierarchy = Hierarchy(value: real, noEdges: bool, undirectedFallback: bool)

  /** The test that a directed graph was meant to be undirected: its
      reciprocated copy has exactly half as many edges. */
  predicate LooksUndirected(A: Matrix) {
    2 * EdgeCount(A, Reciprocal) == ArcCount(A)
  }

  /** hierarchy(G). With no edges: 0 and a warning. Otherwise the GRC of G
      (directed or undirected as G is); when that is 0 on a directed graph
      that looks undirected, the GRC of the reciprocated copy instead. */
  function OldHierarchy(G: NxGraph): (r: Result<Hierarchy>)
    ensures r.Err? <==> !IsSquare(G.adj) || (|G.adj| == 1 && Arc(G.adj, 0, 0))
    ensures r.Ok? ==> 0.0 <= r.value.value <= 1.0
    ensures r.Ok? ==>
              (r.value.noEdges <==> forall i, j :: 0 <= i < |G.adj| && 0 <= j < |G.adj| ==> G.adj[i][j] == 0)
    ensures r.Ok? && r.value.noEdges ==> r.value.value == 0.0 && !r.value.undirectedFallback
    ensures r.Ok? && !r.value.noEdges ==> 2 <= |G.adj|
    ensures r.Ok? && !r.value.noEdges ==>
              (r.value.undirectedFallback <==>
               G.directed && GrcValue(G.adj, Directed) == 0.0 && LooksUndirected(G.adj))
    ensures r.Ok? && !r.value.noEdges && !r.value.undirectedFallback ==>
              r.value.value == GrcValue(G.adj, ViewOf(G))
  {
    var A := G.adj;
    if !IsSquare(A) then Err(NotSquare)
    else
      NoEdgesIffZero(A);
      ArcCountBounds(A);
      if EdgeCount(A, ViewOf(G)) == 0 then Ok(Hierarchy(0.0, true, false))
      else if |A| < 2 then
        assert |A| == 1;
        assert EdgeCount(A, Undirected) == UnorderedEdges(A, Undirected, 1);
        assert UnorderedEdges(A, Undirected, 1) == RowEdges(A, Undirected, 0, 1);
        Err(ZeroDivision)
      else
        var nu := GrcValue(A, ViewOf(G));
        if nu == 0.0 && G.directed && LooksUndirected(A) then
          Ok(Hierarchy(GrcValue(A, Reciprocal), false, true))
        else
          Ok(Hierarchy(nu, false, false))
  }

  /** On an undirected graph the legacy hierarchy is grc of its matrix. */
  lemma OldHierarchyUndirected(G: NxGraph, directed: bool)
    requires !G.directed
    ensures OldHierarchy(G).Err? <==> Grc(G.adj, directed).Err?
    ensures OldHierarchy(G).Ok? ==>
              OldHierarchy(G).value.value == Grc(G.adj, directed).value.value &&
              OldHierarchy(G).value.noEdges == Grc(G.adj, directed).value.noEdges &&
              !OldHierarchy(G).value.undirectedFallback
  {
  }

  // ---------------------------------------------------------------------
  // What the fallback test means

  lemma {:induction false} ReciprocalRow(A: Matrix, i: nat, m: nat)
    ensures RowEdges(A, Reciprocal, i, m) <= RowEdges(A, Directed, i, m)
    ensures RowEdges(A, Reciprocal, i, m) == RowEdges(A, Directed, i, m) <==>
            forall j: nat :: j < m && Arc(A, i, j) ==> Arc(A, j, i)
  {
    if m > 0 {
      ReciprocalRow(A, i, m - 1);
    }
  }

  lemma {:induction false} ReciprocalOrdered(A: Matrix, n: nat, k: nat)
    ensures OrderedEdges(A, Reciprocal, n, k) <= OrderedEdges(A, Directed, n, k)
    ensures OrderedEdges(A, Reciprocal, n, k) == OrderedEdges(A, Directed, n, k) <==>
            forall i: nat, j: nat :: i < k && j < n && Arc(A, i, j) ==> Arc(A, j, i)
  {
    if k > 0 {
      ReciprocalOrdered(A, n, k - 1);
      ReciprocalRow(A, k - 1, n);
      if OrderedEdges(A, Reciprocal, n, k) == OrderedEdges(A, Directed, n, k) {
        forall i: nat, j: nat | i < k && j < n && Arc(A, i, j)
          ensures Arc(A, j, i)
        {
          if i == k - 1 {
            assert j < n && Arc(A, k - 1, j);
          }
        }
      }
    }
  }

  lemma {:induction false} NoReciprocalLoops(A: Matrix, k: nat)
    requires forall u: nat :: !Arc(A, u, u)
    ensures Loops(A, Reciprocal, k) == 0
  {
    if k > 0 {
      NoReciprocalLoops(A, k - 1);
    }
  }

  /** Without self-loops, the reciprocated copy has half the edges exactly
      when every arc is reciprocated. */
  lemma LooksUndirectedMeaning(A: Matrix)
    requires forall u: nat :: !Arc(A, u, u)
    ensures LooksUndirected(A) <==> forall u: nat, v: nat :: Arc(A, u, v) ==> Arc(A, v, u)
  {
    var n := |A|;
    Handshake(A, Reciprocal, n);
    NoReciprocalLoops(A, n);
    ReciprocalOrdered(A, n, n);
  }

  /** A loop-free directed graph whose directed GRC is 0 takes the fallback
      exactly when every arc is reciprocated, and the fallback then reports
      grc of the matrix. */
  lemma FallbackIsUndirectedGrc(G: NxGraph, directed: bool)
    requires G.directed && IsSquare(G.adj) && 2 <= |G.adj|
    requires forall u: nat :: !Arc(G.adj, u, u)
    requires exists u: nat, v: nat :: Arc(G.adj, u, v)
    requires GrcValue(G.adj, Directed) == 0.0
    ensures OldHierarchy(G).Ok? && !OldHierarchy(G).value.noEdges
    ensures OldHierarchy(G).value.undirectedFallback <==>
            forall u: nat, v: nat :: Arc(G.adj, u, v) ==> Arc(G.adj, v, u)
    ensures OldHierarchy(G).value.undirectedFallback ==>
            Grc(G.adj, directed) == Ok(Centrality(OldHierarchy(G).value.value, false))
  {
    FallbackTaken(G);
    LooksUndirectedMeaning(G.adj);
    if forall u: nat, v: nat :: Arc(G.adj, u, v) ==> Arc(G.adj, v, u) {
      FallbackValue(G, directed);
    }
  }

  /** Some arc exists, so the hierarchy is computed and the fallback test
      is the reciprocity test. */
  lemma FallbackTaken(G: NxGraph)
    requires G.directed && IsSquare(G.adj) && 2 <= |G.adj|
    requires exists u: nat, v: nat :: Arc(G.adj, u, v)
    requires GrcValue(G.adj, Directed) == 0.0
    ensures OldHierarchy(G).Ok? && !OldHierarchy(G).value.noEdges
    ensures OldHierarchy(G).value.undirectedFallback <==> LooksUndirected(G.adj)
  {
    var u: nat, v: nat :| Arc(G.adj, u, v);
    assert G.adj[u][v] != 0;
  }

  /** On a symmetric matrix the reciprocal and undirected readings agree, so
      the fallback value is grc of the matrix. */
  lemma FallbackValue(G: NxGraph, directed: bool)
    requires G.directed && IsSquare(G.adj) && 2 <= |G.adj|
    requires forall u: nat, v: nat :: Arc(G.adj, u, v) ==> Arc(G.adj, v, u)
    requires OldHierarchy(G).Ok? && !OldHierarchy(G).value.noEdges
    ensures OldHierarchy(G).value.undirectedFallback ==>
            Grc(G.adj, directed) == Ok(Centrality(OldHierarchy(G).value.value, false))
  {
    assert SameLinks(G.adj, Reciprocal, G.adj, Undirected);
    SameGrcValue(G.adj, Reciprocal, G.adj, Undirected);
  }
}

=== FILE: ncd.dfy ===
/** Normalized compression distance between past and future, with the
    default "compressor" that reports the length of its input, and the
    estimator that averages it over the splits of a splitter. */
module Ncd {
  import opened Outcome
  import opened Fractions
  import opened Splitting

  /** The size a compressor reports for a piece of the series. The base
      estimator's get_compressed_size is the length; estimators built on a
      real compressor supply their own. */
  type Sizer<!T> = seq<T> -> nat

  function CompressedSize<T>(d: seq<T>): nat {
    |d|
  }

  function Min(a: nat, b: nat): nat {
    if a <= b then a else b
  }

  function Max(a: nat, b: nat): nat {
    if a <= b then b else a
  }

  /** A float64 distance: a finite value, +inf or nan. */
  datatype Distance = Finite(value: real) | PosInf | NaN

  /** NCDfromLen: (l12 - min(l1, l2)) / max(l1, l2). When both sizes are 0
      numpy divides by zero: +inf for a positive joint size, nan for 0. */
  function NcdFromLen(l1: nat, l2: nat, l12: nat): (r: Distance)
    ensures r.PosInf? <==> l1 == 0 && l2 == 0 && l12 > 0
    ensures r.NaN? <==> l1 == 0 && l2 == 0 && l12 == 0
    ensures r.Finite? && l12 <= l1 + l2 ==> r.value <= 1.0
    ensures r.Finite? && l12 >= Max(l1, l2) ==> 0.0 <= r.value
  {
    if Max(l1, l2) == 0 then
      if l12 > 0 then PosInf else NaN
    else
      var m := Max(l1, l2) as real;
      var a := l12 as real - Min(l1, l2) as real;
      QuotientBounds(a, m);
      Finite(a / m)
  }

  /** The distance does not depend on which piece comes first. */
  lemma NcdSymmetric(l1: nat, l2: nat, l12: nat)
    ensures NcdFromLen(l1, l2, l12) == NcdFromLen(l2, l1, l12)
  {
  }

  /** A joint size equal to the sum of the parts gives distance exactly 1. */
  lemma NcdOfSum(l1: nat, l2: nat)
    requires l1 + l2 > 0
    ensures NcdFromLen(l1, l2, l1 + l2) == Finite(1.0)
  {
    var m := Max(l1, l2) as real;
    assert (l1 + l2) as real - Min(l1, l2) as real == m;
    SelfRatio(m);
  }

  /** NCDfromData: the joint size is the given one, or else the size of the
      concatenation. */
  function NcdFromData<T>(size: Sizer<T>, d1: seq<T>, d2: seq<T>, l12: Option<nat>): (r: Distance)
    ensures r.Finite? <==> size(d1) > 0 || size(d2) > 0
    ensures l12.None? ==> r == NcdFromLen(size(d1), size(d2), size(d1 + d2))
  {
    var joint := if l12.Some? then l12.value else size(d1 + d2);
    NcdFromLen(size(d1), size(d2), joint)
  }

  /** getFullSize: stores the size of the whole series (nothing for
      QuartileSubsets) but returns nothing, so the estimator never receives
      a joint size. The result pairs the stored field with the returned
      value. */
  function GetFullSize<T>(size: Sizer<T>, s: Splitter<T>): (r: (Option<nat>, Option<nat>))
    ensures r.1.None?
    ensures r.0.Some? <==> s.kind != QuartileSubsets
  {
    if s.kind == QuartileSubsets then (None, None) else (Some(size(s.data)), None)
  }

  // ---------------------------------------------------------------------
  // The estimator

  /** The distance of one (past, future) pair of s, as the estimator
      computes it: with the joint size getFullSize returned. */
  function PairNcd<T>(size: Sizer<T>, s: Splitter<T>, pair: (seq<T>, seq<T>)): Distance {
    NcdFromData(size, pair.0, pair.1, GetFullSize(size, s).1)
  }

  /** Float addition: nan absorbs everything, then +inf does. */
  function Plus(a: Distance, b: Distance): Distance {
    if a.NaN? || b.NaN? then NaN
    else if a.PosInf? || b.PosInf? then PosInf
    else Finite(a.value + b.value)
  }

  /** The sum of the stored values, left to right. */
  function SumValues(vs: seq<Distance>): Distance {
    if |vs| == 0 then Finite(0.0)
    else Plus(SumValues(vs[..|vs| - 1]), vs[|vs| - 1])
  }

  /** np.mean: the sum over the count; nan for an empty array. */
  function MeanValues(vs: seq<Distance>): Distance {
    if |vs| == 0 then NaN
    else
      var t := SumValues(vs);
      if t.Finite? then Finite(t.value / |vs| as real) else t
  }

  predicate HasNaN(vs: seq<Distance>) {
    exists k :: 0 <= k < |vs| && vs[k].NaN?
  }

  predicate HasInf(vs: seq<Distance>) {
    exists k :: 0 <= k < |vs| && vs[k].PosInf?
  }

  lemma PrefixKinds(vs: seq<Distance>)
    requires |vs| > 0
    ensures HasNaN(vs) <==> HasNaN(vs[..|vs| - 1]) || vs[|vs| - 1].NaN?
    ensures HasInf(vs) <==> HasInf(vs[..|vs| - 1]) || vs[|vs| - 1].PosInf?
  {
    var p := vs[..|vs| - 1];
    assert forall k :: 0 <= k < |p| ==> p[k] == vs[k];
  }

  /** The sum is nan iff some value is, and +inf iff some value is +inf and
      none is nan. */
  lemma {:induction false} SumKinds(vs: seq<Distance>)
    ensures SumValues(vs).NaN? <==> HasNaN(vs)
    ensures SumValues(vs).PosInf? <==> HasInf(vs) && !HasNaN(vs)
  {
    if |vs| > 0 {
      SumKinds(vs[..|vs| - 1]);
      PrefixKinds(vs);
    }
  }

  /** The mean is nan for an empty array or one holding nan, +inf for one
      holding +inf but no nan, and finite otherwise. */
  lemma MeanKinds(vs: seq<Distance>)
    ensures MeanValues(vs).NaN? <==> |vs| == 0 || HasNaN(vs)
    ensures MeanValues(vs).PosInf? <==> HasInf(vs) && !HasNaN(vs)
  {
    SumKinds(vs);
  }

  /** The array of distances after an estimate, the split indices that
      printed the "NCD > 1" warning, and the returned mean. */
  datatype Estimation = Estimation(values: seq<Distance>, warnings: seq<nat>, mean: Distance)

  /** The comparison ncd > 1: true of +inf, false of nan. */
  predicate AboveOne(v: Distance) {
    v.PosInf? || (v.Finite? && v.value > 1.0)
  }

  /** The array base once the first m distances of s have been written over
      it. */
  function Stored<T>(size: Sizer<T>, s: Splitter<T>, base: seq<Distance>, m: nat): (vs: seq<Distance>)
    requires m <= |Pairs(s)| <= |base|
    ensures |vs| == |base|
  {
    seq(|base|, k requires 0 <= k < |base| => if k < m then PairNcd(size, s, Pairs(s)[k]) else base[k])
  }

  /** Writing distance m extends the stored prefix by one. */
  lemma StoredStep<T>(size: Sizer<T>, s: Splitter<T>, base: seq<Distance>, m: nat)
    requires m < |Pairs(s)| <= |base|
    ensures Stored(size, s, base, m)[m := PairNcd(size, s, Pairs(s)[m])] == Stored(size, s, base, m + 1)
  {
  }

  /** The array after running s to its end over base. */
  function Values<T>(size: Sizer<T>, s: Splitter<T>, base: seq<Distance>): (vs: seq<Distance>)
    requires |Pairs(s)| <= |base|
    ensures |vs| == |base|
  {
    Stored(size, s, base, |Pairs(s)|)
  }

  /** The indices below m that pass q, in increasing order. */
  function Indices(q: nat -> bool, m: nat): seq<nat> {
    if m == 0 then []
    else if q(m - 1) then Indices(q, m - 1) + [m - 1]
    else Indices(q, m - 1)
  }

  lemma {:induction false} IndicesMembers(q: nat -> bool, m: nat)
    ensures forall k: nat :: k in Indices(q, m) <==> k < m && q(k)
  {
    if m > 0 {
      IndicesMembers(q, m - 1);
    }
  }

  lemma {:induction false} IndicesNone(q: nat -> bool, m: nat)
    requires forall k: nat :: k < m ==> !q(k)
    ensures Indices(q, m) == []
  {
    if m > 0 {
      IndicesNone(q, m - 1);
    }
  }

  /** The test the loop applies to split k: its distance exceeds 1. */
  function WarnTest<T>(size: Sizer<T>, s: Splitter<T>): nat -> bool {
    (k: nat) => k < |Pairs(s)| && AboveOne(PairNcd(size, s, Pairs(s)[k]))
  }

  /** The indices, among the first m splits, that print the "NCD > 1"
      warning, in loop order. */
  function Warnings<T>(size: Sizer<T>, s: Splitter<T>, m: nat): seq<nat>
    requires m <= |Pairs(s)|
  {
    Indices(WarnTest(size, s), m)
  }

  /** The warnings are exactly the splits whose distance exceeds 1. */
  lemma WarningsMembers<T>(size: Sizer<T>, s: Splitter<T>, m: nat)
    requires m <= |Pairs(s)|
    ensures forall k: nat :: k in Warnings(size, s, m) <==> k < m && AboveOne(PairNcd(size, s, Pairs(s)[k]))
  {
    IndicesMembers(WarnTest(size, s), m);
  }

  /** A split whose pieces both have size 0 while their concatenation does
      not has distance +inf, and it prints the warning. */
  lemma InfiniteWarns<T>(size: Sizer<T>, s: Splitter<T>, m: nat, k: nat)
    requires k < m <= |Pairs(s)|
    requires size(Pairs(s)[k].0) == 0 && size(Pairs(s)[k].1) == 0
    requires size(Pairs(s)[k].0 + Pairs(s)[k].1) > 0
    ensures PairNcd(size, s, Pairs(s)[k]) == PosInf
    ensures k in Warnings(size, s, m)
  {
    IndicesMembers(WarnTest(size, s), m);
  }

  // ---------------------------------------------------------------------
  // The estimator object

  /** An NCDEstimator: the splitter it pulls pairs from and its ncd_values
      array. */
  datatype Estimator<T> = Estimator(splitter: Splitter<T>, values: seq<Distance>)

  /** The array has one slot per split the splitter announces, as the
      constructor allocates it. */
  predicate Sized<T>(e: Estimator<T>) {
    |e.values| == NuSplits(e.splitter.kind, |e.splitter.data|)
  }

  /** __init__: keep the splitter and allocate nu_splits zeros; np.zeros
      raises on a negative length. */
  function NewEstimator<T>(s: Splitter<T>): (r: Result<Estimator<T>>)
    ensures r.Err? <==> NuSplits(s.kind, |s.data|) < 0
    ensures r.Ok? ==> Sized(r.value) && r.value.splitter == s
    ensures r.Ok? ==> forall k :: 0 <= k < |r.value.values| ==> r.value.values[k] == Finite(0.0)
  {
    var nu := NuSplits(s.kind, |s.data|);
    if nu < 0 then Err(NegativeDimension) else Ok(Estimator(s, seq(nu, _ => Finite(0.0))))
  }

  /** The splitter once every remaining pair has been pulled from it. */
  function Drained<T>(s: Splitter<T>): (d: Splitter<T>)
    ensures !HasNext(d) && d.data == s.data && d.kind == s.kind
  {
    NextIsPair(s, |Pairs(s)|);
    s.(index := s.index + |Pairs(s)|)
  }

  /** estimate(): pull the remaining pairs of the estimator's splitter,
      write the k-th distance into slot k of its array, and return the mean
      of the whole array. The estimator keeps the drained splitter and the
      written array. */
  function EstimateOf<T>(size: Sizer<T>, e: Estimator<T>): (r: (Estimator<T>, Estimation))
    requires Sized(e)
    ensures Sized(r.0) && !HasNext(r.0.splitter)
    ensures r.1.values == r.0.values
  {
    var s := e.splitter;
    var vs := Values(size, s, e.values);
    (Estimator(Drained(s), vs), Estimation(vs, Warnings(size, s, |Pairs(s)|), MeanValues(vs)))
  }

  /** Slot k holds the distance of the k-th pair the splitter still had;
      slots past the last pair keep what the array held before. */
  lemma EstimateSlots<T>(size: Sizer<T>, e: Estimator<T>, k: nat)
    requires Sized(e) && k < |e.values|
    ensures var est := EstimateOf(size, e).1;
            |est.values| == |e.values| &&
            est.values[k] == if k < |Pairs(e.splitter)| then PairNcd(size, e.splitter, Pairs(e.splitter)[k]) else e.values[k]
  {
  }

  /** A second estimate() finds the splitter drained: it writes nothing,
      prints no warning and returns the first call's mean. */
  lemma EstimateAgain<T>(size: Sizer<T>, e: Estimator<T>)
    requires Sized(e)
    ensures var first := EstimateOf(size, e);
            var second := EstimateOf(size, first.0);
            second.0 == first.0 && second.1 == first.1.(warnings := [])
  {
    var first := EstimateOf(size, e);
    var d := first.0.splitter;
    assert |Pairs(d)| == 0;
    assert Values(size, d, first.0.values) == first.0.values;
  }

  /** One pass of the loop body: writing the i-th distance and noting it
      when it exceeds 1 takes the state after i passes to the state after
      i + 1. */
  lemma EstimateStep<T>(size: Sizer<T>, s: Splitter<T>, base: seq<Distance>, i: nat,
                        values: seq<Distance>, warnings: seq<nat>, ncd: Distance)
    requires i < |Pairs(s)| <= |base|
    requires values == Stored(size, s, base, i) && warnings == Warnings(size, s, i)
    requires ncd == PairNcd(size, s, Pairs(s)[i])
    ensures values[i := ncd] == Stored(size, s, base, i + 1)
    ensures (if AboveOne(ncd) then warnings + [i] else warnings) == Warnings(size, s, i + 1)
  {
    StoredStep(size, s, base, i);
  }

  /** After i calls of nextData on s, the next call yields a pair exactly
      when i pairs have not yet been used up, and that pair is the i-th. */
  lemma NextIsPair<T>(s: Splitter<T>, i: nat)
    ensures NextData(s.(index := s.index + i)).1.Some? <==> i < |Pairs(s)|
    ensures i < |Pairs(s)| ==> NextData(s.(index := s.index + i)).1.value == Pairs(s)[i]
  {
    if i < |Pairs(s)| {
      PairsAt(s, i);
    }
  }

  /** estimate() as written: a loop over the shared splitter that writes
      into the estimator's array. */
  method Estimate<T>(size: Sizer<T>, e: Estimator<T>) returns (next: Estimator<T>, est: Estimation)
    requires Sized(e)
    ensures (next, est) == EstimateOf(size, e)
  {
    var values, warnings, done := RunSplits(size, e.splitter, e.values);
    next := Estimator(done, values);
    est := Estimation(values, warnings, MeanValues(values));
  }

  /** The loop of estimate(): run the splitter to its end, writing the k-th
      distance into slot k of base and noting each distance above 1. */
  method RunSplits<T>(size: Sizer<T>, s: Splitter<T>, base: seq<Distance>)
      returns (values: seq<Distance>, warnings: seq<nat>, done: Splitter<T>)
    requires |Pairs(s)| <= |base|
    ensures values == Values(size, s, base)
    ensures warnings == Warnings(size, s, |Pairs(s)|)
    ensures done == Drained(s)
  {
    var joint := GetFullSize(size, s).1;
    values := base;
    warnings := [];
    var cur := s;
    var index: nat := 0;
    NextIsPair(s, 0);
    while HasNext(cur)
      invariant index <= |Pairs(s)|
      invariant cur == s.(index := s.index + index)
      invariant HasNext(cur) <==> index < |Pairs(s)|
      invariant values == Stored(size, s, base, index)
      invariant warnings == Warnings(size, s, index)
      decreases |Pairs(s)| - index
    {
      var next := NextData(cur);
      NextIsPair(s, index);
      var pair := next.1.value;
      var ncd := NcdFromData(size, pair.0, pair.1, joint);
      EstimateStep(size, s, base, index, values, warnings, ncd);
      if AboveOne(ncd) {
        warnings := warnings + [index];
      }
      values := values[index := ncd];
      cur := next.0;
      index := index + 1;
      NextIsPair(s, index);
    }
    done := cur;
  }

  // ---------------------------------------------------------------------
  // With the length as the size every distance is 1

  /** Every pair whose pieces are not both empty has distance 1. */
  lemma PairNcdIsOne<T>(s: Splitter<T>, pair: (seq<T>, seq<T>))
    requires |pair.0| + |pair.1| > 0
    ensures PairNcd(CompressedSize, s, pair) == Finite(1.0)
  {
    NcdOfSum(|pair.0|, |pair.1|);
  }

  lemma {:induction false} SumOfOnes(vs: seq<Distance>)
    requires forall k :: 0 <= k < |vs| ==> vs[k] == Finite(1.0)
    ensures SumValues(vs) == Finite(|vs| as real)
  {
    if |vs| > 0 {
      SumOfOnes(vs[..|vs| - 1]);
    }
  }

  /** No distance above 1, no warning. */
  lemma WarningsNone<T>(size: Sizer<T>, s: Splitter<T>, m: nat)
    requires m <= |Pairs(s)|
    requires forall k :: 0 <= k < m ==> !AboveOne(PairNcd(size, s, Pairs(s)[k]))
    ensures Warnings(size, s, m) == []
  {
    IndicesNone(WarnTest(size, s), m);
  }

  /** The mean of n >= 1 ones is 1. */
  lemma MeanOfOnes(vs: seq<Distance>)
    requires |vs| >= 1 && forall k :: 0 <= k < |vs| ==> vs[k] == Finite(1.0)
    ensures MeanValues(vs) == Finite(1.0)
  {
    SumOfOnes(vs);
    assert |vs| as real / |vs| as real == 1.0;
  }

  /** Every pair a fresh splitter yields on a series of at least two samples
      has a nonempty piece. */
  lemma FreshPairsNonEmpty<T>(kind: Kind, data: seq<T>, k: nat)
    requires |data| >= 2 && k < |Pairs(NewSplitter(kind, data))|
    ensures |Pairs(NewSplitter(kind, data))[k].0| + |Pairs(NewSplitter(kind, data))[k].1| > 0
  {
    var s := NewSplitter(kind, data);
    PairsAt(s, k);
    var t := s.(index := k);
    if kind == QuartileSubsets {
      SubsetsNonEmpty(t);
    } else {
      SplitCovers(t);
    }
  }

  /** Every distance stored for a fresh splitter over at least two samples
      is 1. */
  lemma FreshValuesAreOne<T>(kind: Kind, data: seq<T>)
    requires |data| >= 2
    ensures var s := NewSplitter(kind, data);
            forall k :: 0 <= k < |Pairs(s)| ==> PairNcd(CompressedSize, s, Pairs(s)[k]) == Finite(1.0)
  {
    var s := NewSplitter(kind, data);
    forall k | 0 <= k < |Pairs(s)|
      ensures PairNcd(CompressedSize, s, Pairs(s)[k]) == Finite(1.0)
    {
      FreshPairsNonEmpty(kind, data, k);
      PairNcdIsOne(s, Pairs(s)[k]);
    }
  }

  /** A fresh estimator over a fresh splitter of any kind over at least
      two samples estimates 1, with every stored value 1 and no warning. */
  lemma EstimateIsOne<T>(kind: Kind, data: seq<T>)
    requires |data| >= 2
    ensures var r := NewEstimator(NewSplitter(kind, data));
            r.Ok? &&
            var est := EstimateOf(CompressedSize, r.value).1;
            est.mean == Finite(1.0) && est.warnings == [] &&
            forall k :: 0 <= k < |est.values| ==> est.values[k] == Finite(1.0)
  {
    var s := NewSplitter(kind, data);
    var e := NewEstimator(s).value;
    FreshPairs(kind, data);
    FreshValuesAreOne(kind, data);
    var vs := Values(CompressedSize, s, e.values);
    assert forall k :: 0 <= k < |vs| ==> vs[k] == PairNcd(CompressedSize, s, Pairs(s)[k]);
    MeanOfOnes(vs);
    WarningsNone(CompressedSize, s, |Pairs(s)|);
  }
}

=== FILE: outcome.dfy ===
/** Failures the metrics can raise instead of returning a number. */
module Outcome {

  datatype Error =
    | NotSquare          // the adjacency matrix is not square
    | ZeroDivision       // a denominator of the metric is zero
    | NegativeDimension  // an array of negative length was requested

  datatype Result<+T> = Ok(value: T) | Err(error: Error) {
    predicate IsFailure() {
      Err?
    }

    function PropagateFailure<U>(): Result<U>
      requires Err?
    {
      Err(error)
    }

    function Extract(): T
      requires Ok?
    {
      value
    }
  }

  /** A value that may be missing; None stands for a result that is not a
      finite number. */
  datatype Option<+T> = None | Some(value: T)
}

=== FILE: reaching.dfy ===
/** Local and global reaching centrality: how much of the graph each node
    reaches, and how unevenly that reach is spread over the nodes (a
    hierarchy score). All paths are unweighted. */
module Reaching {
  import opened Graph
  import opened Counts
  import opened Outcome
  import opened Fractions
  import opened Aggregate

  // ---------------------------------------------------------------------
  // Hop distances of one and two

  /** The ball of radius one is u and its neighbours. */
  lemma BallOne(A: Matrix, view: View, u: nat, v: nat)
    requires u < |A|
    ensures v in Ball(A, view, u, 1) <==> v == u || Edge(A, view, u, v)
  {
    assert Ball(A, view, u, 0) == {u};
    if Edge(A, view, u, v) {
      assert v in Successors(A, view, {u});
    }
  }

  /** For v != u: v is at distance one exactly when it is a neighbour. */
  lemma DistOneIffEdge(A: Matrix, view: View, u: nat, v: nat)
    requires u < |A| && v != u
    ensures Edge(A, view, u, v) <==> v in ReachSet(A, view, u) && Dist(A, view, u, v) == 1
  {
    BallOne(A, view, u, v);
    BallMonotone(A, view, u, 1, |A|);
    if v in ReachSet(A, view, u) {
      var d := Dist(A, view, u, v);
      DistZeroIffSame(A, view, u, v);
      if Edge(A, view, u, v) {
        assert d <= 1;
      }
    }
  }

  /** A non-neighbour v with a common neighbour w is at distance two. */
  lemma DistTwo(A: Matrix, view: View, u: nat, v: nat, w: nat)
    requires 2 <= |A| && u < |A| && v != u
    requires !Edge(A, view, u, v) && Edge(A, view, u, w) && Edge(A, view, w, v)
    ensures v in ReachSet(A, view, u) && Dist(A, view, u, v) == 2
  {
    BallOne(A, view, u, w);
    assert v in Successors(A, view, Ball(A, view, u, 1));
    assert v in Ball(A, view, u, 2);
    BallMonotone(A, view, u, 2, |A|);
    var d := Dist(A, view, u, v);
    DistZeroIffSame(A, view, u, v);
    DistOneIffEdge(A, view, u, v);
    assert d <= 2;
  }

  // ---------------------------------------------------------------------
  // Local reaching centrality

  /** 1 / dist(u, v) for a node v != u that u reaches, and 0 otherwise: the
      mean edge weight along a shortest unweighted path. */
  function InvDist(A: Matrix, view: View, u: nat, v: nat): (w: real)
    ensures 0.0 <= w <= 1.0
    ensures w == 0.0 <==> v == u || v !in ReachSet(A, view, u)
  {
    if v != u && v in ReachSet(A, view, u) then
      DistZeroIffSame(A, view, u, v);
      var d := Dist(A, view, u, v) as real;
      assert d >= 1.0;
      assert (1.0 / d) * d == 1.0;
      1.0 / d
    else 0.0
  }

  /** InvDist is 1 exactly at the neighbours of u. */
  lemma InvDistOne(A: Matrix, view: View, u: nat, v: nat)
    requires u < |A|
    ensures InvDist(A, view, u, v) == 1.0 <==> v != u && Edge(A, view, u, v)
  {
    if v != u {
      DistOneIffEdge(A, view, u, v);
      if v in ReachSet(A, view, u) {
        InvDistReached(A, view, u, v);
      }
    }
  }

  lemma InvDistReached(A: Matrix, view: View, u: nat, v: nat)
    requires v != u && v in ReachSet(A, view, u)
    ensures InvDist(A, view, u, v) == 1.0 <==> Dist(A, view, u, v) == 1
  {
    DistZeroIffSame(A, view, u, v);
    ReciprocalOne(Dist(A, view, u, v) as real);
  }

  /** The per-target weights seen from u: 1 / dist(u, v) for every node v. */
  function Weights(A: Matrix, view: View, u: nat): (ws: seq<real>)
    ensures |ws| == |A| && InUnit(ws)
    ensures u < |A| ==> ws[u] == 0.0
    ensures forall v :: 0 <= v < |A| ==> ws[v] == InvDist(A, view, u, v)
  {
    seq(|A|, v requires 0 <= v < |A| => InvDist(A, view, u, v))
  }

  /** C_R(u). Directed graphs: the share of the other nodes that u reaches.
      Undirected graphs: the mean over the other nodes of 1 / dist(u, v). */
  function Lrc(A: Matrix, view: View, u: nat): (c: real)
    requires 2 <= |A| && u < |A|
    ensures 0.0 <= c <= 1.0
  {
    var n := (|A| - 1) as real;
    if view == Directed then
      ReachSetWithinNodes(A, view, u);
      ShareBounds((|ReachSet(A, view, u)| - 1) as real, n);
      (|ReachSet(A, view, u)| - 1) as real / n
    else
      var ws := Weights(A, view, u);
      SumWithHole(ws, u);
      ShareBounds(Sum(ws), n);
      Sum(ws) / n
  }

  /** C_R(u) = 0 exactly when u reaches nothing but itself. */
  lemma LrcZero(A: Matrix, view: View, u: nat)
    requires 2 <= |A| && u < |A|
    ensures Lrc(A, view, u) == 0.0 <==> ReachSet(A, view, u) == {u}
  {
    if view == Directed {
      LrcZeroDirected(A, u);
    } else {
      LrcZeroSymmetric(A, view, u);
    }
  }

  lemma LrcZeroDirected(A: Matrix, u: nat)
    requires 2 <= |A| && u < |A|
    ensures Lrc(A, Directed, u) == 0.0 <==> ReachSet(A, Directed, u) == {u}
  {
    var R := ReachSet(A, Directed, u);
    ReachSetWithinNodes(A, Directed, u);
    ShareBounds((|R| - 1) as real, (|A| - 1) as real);
    if |R| == 1 {
      forall x | x in R
        ensures x == u
      {
        if x != u {
          assert {u, x} <= R;
          SubsetCard({u, x}, R);
        }
      }
    }
  }

  lemma LrcZeroSymmetric(A: Matrix, view: View, u: nat)
    requires view != Directed && 2 <= |A| && u < |A|
    ensures Lrc(A, view, u) == 0.0 <==> ReachSet(A, view, u) == {u}
  {
    var R := ReachSet(A, view, u);
    ReachSetWithinNodes(A, view, u);
    var ws := Weights(A, view, u);
    SumWithHole(ws, u);
    ShareBounds(Sum(ws), (|A| - 1) as real);
    assert Lrc(A, view, u) == 0.0 <==> forall v :: 0 <= v < |A| ==> ws[v] == 0.0;
    if R != {u} {
      var x :| x in R && x != u;
      assert ws[x] != 0.0;
    }
  }

  /** C_R(u) = 1 exactly when u reaches every node (directed), or is a
      neighbour of every other node (undirected). */
  lemma LrcOne(A: Matrix, view: View, u: nat)
    requires 2 <= |A| && u < |A|
    ensures view == Directed ==> (Lrc(A, view, u) == 1.0 <==> ReachSet(A, view, u) == Nodes(|A|))
    ensures view != Directed ==>
            (Lrc(A, view, u) == 1.0 <==> forall v: nat :: v < |A| && v != u ==> Edge(A, view, u, v))
  {
    if view == Directed {
      LrcOneDirected(A, u);
    } else {
      LrcOneSymmetric(A, view, u);
    }
  }

  lemma LrcOneDirected(A: Matrix, u: nat)
    requires 2 <= |A| && u < |A|
    ensures Lrc(A, Directed, u) == 1.0 <==> ReachSet(A, Directed, u) == Nodes(|A|)
  {
    LrcDirectedShare(A, u);
    ReachesAllBySize(A, u);
    var R := ReachSet(A, Directed, u);
    ShareBounds((|R| - 1) as real, (|A| - 1) as real);
  }

  lemma LrcDirectedShare(A: Matrix, u: nat)
    requires 2 <= |A| && u < |A|
    ensures 1 <= |ReachSet(A, Directed, u)| <= |A|
    ensures Lrc(A, Directed, u) == (|ReachSet(A, Directed, u)| - 1) as real / (|A| - 1) as real
  {
    ReachSetWithinNodes(A, Directed, u);
  }

  lemma ReachesAllBySize(A: Matrix, u: nat)
    requires u < |A|
    ensures ReachSet(A, Directed, u) == Nodes(|A|) <==> |ReachSet(A, Directed, u)| == |A|
  {
    var R := ReachSet(A, Directed, u);
    ReachSetWithinNodes(A, Directed, u);
    if R != Nodes(|A|) {
      ProperSubsetCard(R, Nodes(|A|));
    }
  }

  lemma LrcOneSymmetric(A: Matrix, view: View, u: nat)
    requires view != Directed && 2 <= |A| && u < |A|
    ensures Lrc(A, view, u) == 1.0 <==> forall v: nat :: v < |A| && v != u ==> Edge(A, view, u, v)
  {
    var ws := Weights(A, view, u);
    SumWithHole(ws, u);
    ShareBounds(Sum(ws), (|A| - 1) as real);
    assert Lrc(A, view, u) == 1.0 <==> forall v :: 0 <= v < |A| && v != u ==> ws[v] == 1.0;
    forall v: nat | v < |A|
      ensures ws[v] == 1.0 <==> v != u && Edge(A, view, u, v)
    {
      InvDistOne(A, view, u, v);
    }
  }

  // ---------------------------------------------------------------------
  // Graphs of diameter two

  /** The number of neighbours of u other than u itself. */
  function Degree(A: Matrix, view: View, u: nat): nat {
    |set v | 0 <= v < |A| && v != u && Edge(A, view, u, v)|
  }

  /** Every node other than u is a neighbour or a neighbour's neighbour. */
  ghost predicate WithinTwo(A: Matrix, view: View, u: nat) {
    forall v: nat :: v < |A| && v != u && !Edge(A, view, u, v) ==>
      exists w: nat :: Edge(A, view, u, w) && Edge(A, view, w, v)
  }

  /** Within two hops of u, each weight is 1 at a neighbour and 1/2
      elsewhere. */
  lemma WeightsWithinTwo(A: Matrix, view: View, u: nat)
    requires 2 <= |A| && u < |A| && WithinTwo(A, view, u)
    ensures forall v :: 0 <= v < |A| && v != u ==>
              Weights(A, view, u)[v] == (if Edge(A, view, u, v) then 1.0 else 0.5)
  {
    forall v | 0 <= v < |A| && v != u
      ensures InvDist(A, view, u, v) == (if Edge(A, view, u, v) then 1.0 else 0.5)
    {
      if Edge(A, view, u, v) {
        InvDistOne(A, view, u, v);
      } else {
        var w: nat :| Edge(A, view, u, w) && Edge(A, view, w, v);
        DistTwo(A, view, u, v, w);
      }
    }
  }

  /** With every node within two hops of u, neighbours add 1 and the rest
      add 1/2: C_R(u) = (deg + (N - 1 - deg) / 2) / (N - 1), which is
      (N - 1 + deg) / (2 (N - 1)). */
  lemma LrcWithinTwo(A: Matrix, view: View, u: nat)
    requires view != Directed && 2 <= |A| && u < |A| && WithinTwo(A, view, u)
    ensures Lrc(A, view, u) == ((|A| - 1) + Degree(A, view, u)) as real / (2 * (|A| - 1)) as real
  {
    LrcUndirectedMean(A, view, u);
    WeightSumWithinTwo(A, view, u);
    HalvesFormula((|A| - 1) as real, Degree(A, view, u) as real);
  }

  lemma LrcUndirectedMean(A: Matrix, view: View, u: nat)
    requires view != Directed && 2 <= |A| && u < |A|
    ensures Lrc(A, view, u) == Sum(Weights(A, view, u)) / (|A| - 1) as real
  {
  }

  lemma HalvesFormula(n: real, d: real)
    requires n > 0.0
    ensures (d + (n - d) / 2.0) / n == (n + d) / (2.0 * n)
  {
  }

  lemma WeightSumWithinTwo(A: Matrix, view: View, u: nat)
    requires 2 <= |A| && u < |A| && WithinTwo(A, view, u)
    ensures var deg := Degree(A, view, u);
            Sum(Weights(A, view, u)) == deg as real + (|A| - 1 - deg) as real / 2.0
  {
    var ws := Weights(A, view, u);
    WeightsWithinTwo(A, view, u);
    SumOfOnesAndHalves(ws, u);
    OnesIsCard(ws);
    assert (set i | 0 <= i < |ws| && ws[i] == 1.0) ==
           (set v | 0 <= v < |A| && v != u && Edge(A, view, u, v));
  }

  // ---------------------------------------------------------------------
  // Global reaching centrality

  /** C_R of every node. */
  function Lrcs(A: Matrix, view: View): (cs: seq<real>)
    requires 2 <= |A|
    ensures |cs| == |A| && InUnit(cs)
    ensures forall u :: 0 <= u < |A| ==> cs[u] == Lrc(A, view, u)
  {
    seq(|A|, u requires 0 <= u < |A| => Lrc(A, view, u))
  }

  /** GRC = the sum over u of (max C_R - C_R(u)), divided by N - 1. */
  function GrcValue(A: Matrix, view: View): (g: real)
    requires 2 <= |A|
    ensures 0.0 <= g <= 1.0
    ensures g == 0.0 <==>
            forall u: nat, v: nat :: u < |A| && v < |A| ==> Lrc(A, view, u) == Lrc(A, view, v)
  {
    var cs := Lrcs(A, view);
    assert (forall i, j :: 0 <= i < |cs| && 0 <= j < |cs| ==> cs[i] == cs[j]) <==>
           (forall u: nat, v: nat :: u < |A| && v < |A| ==> Lrc(A, view, u) == Lrc(A, view, v));
    Spread(cs)
  }

  // ---------------------------------------------------------------------
  // grc(A, directed)

  /** The value grc reports and whether it printed the no-edges warning. */
  datatype Centrality = Centrality(value: real, noEdges: bool)

  /** grc(A, directed). Both branches of the source build an undirected
      graph (the flag reaches a parameter that does not choose the graph
      type), so `directed` does not influence the result. */
  function Grc(A: Matrix, directed: bool): (r: Result<Centrality>)
    ensures r.Err? <==> !IsSquare(A) || (|A| == 1 && Arc(A, 0, 0))
    ensures r.Ok? ==> 0.0 <= r.value.value <= 1.0
    ensures r.Ok? ==>
              (r.value.noEdges <==> forall i, j :: 0 <= i < |A| && 0 <= j < |A| ==> A[i][j] == 0)
    ensures r.Ok? && r.value.noEdges ==> r.value.value == 0.0
    ensures r.Ok? && !r.value.noEdges ==>
              2 <= |A| &&
              (r.value.value == 0.0 <==>
               forall u: nat, v: nat :: u < |A| && v < |A| ==> Lrc(A, Undirected, u) == Lrc(A, Undirected, v))
  {
    if !IsSquare(A) then Err(NotSquare)
    else
      NoEdgesIffZero(A);
      if EdgeCount(A, Undirected) == 0 then Ok(Centrality(0.0, true))
      else if |A| < 2 then
        assert |A| == 1;
        assert EdgeCount(A, Undirected) == UnorderedEdges(A, Undirected, 1);
        assert UnorderedEdges(A, Undirected, 1) == RowEdges(A, Undirected, 0, 1);
        Err(ZeroDivision)
      else
        Ok(Centrality(GrcValue(A, Undirected), false))
  }

  // ---------------------------------------------------------------------
  // What grc depends on

  /** A read under view va and B read under view vb have the same nodes and
      the same links. */
  ghost predicate SameLinks(A: Matrix, va: View, B: Matrix, vb: View) {
    |A| == |B| && forall u: nat, v: nat :: Edge(A, va, u, v) <==> Edge(B, vb, u, v)
  }

  lemma SameBall(A: Matrix, va: View, B: Matrix, vb: View, u: nat, k: nat)
    requires SameLinks(A, va, B, vb)
    ensures Ball(A, va, u, k) == Ball(B, vb, u, k)
  {
    if k > 0 {
      SameBall(A, va, B, vb, u, k - 1);
      SameSuccessors(A, va, B, vb, Ball(A, va, u, k - 1));
    }
  }

  lemma SameSuccessors(A: Matrix, va: View, B: Matrix, vb: View, S: set<nat>)
    requires SameLinks(A, va, B, vb)
    ensures Successors(A, va, S) == Successors(B, vb, S)
  {
  }

  lemma SameDist(A: Matrix, va: View, B: Matrix, vb: View, u: nat, v: nat)
    requires SameLinks(A, va, B, vb) && v in ReachSet(A, va, u)
    ensures v in ReachSet(B, vb, u) && Dist(A, va, u, v) == Dist(B, vb, u, v)
  {
    SameBall(A, va, B, vb, u, |A|);
    var a := Dist(A, va, u, v);
    var b := Dist(B, vb, u, v);
    SameBall(A, va, B, vb, u, a);
    SameBall(A, va, B, vb, u, b);
  }

  lemma SameWeights(A: Matrix, va: View, B: Matrix, vb: View, u: nat)
    requires SameLinks(A, va, B, vb)
    ensures Weights(A, va, u) == Weights(B, vb, u)
  {
    SameBall(A, va, B, vb, u, |A|);
    forall v | 0 <= v < |A|
      ensures InvDist(A, va, u, v) == InvDist(B, vb, u, v)
    {
      if v != u && v in ReachSet(A, va, u) {
        SameDist(A, va, B, vb, u, v);
      }
    }
  }

  /** C_R, and hence GRC, is a function of the links alone, provided both
      readings use the same formula (both directed or both undirected). */
  lemma SameGrcValue(A: Matrix, va: View, B: Matrix, vb: View)
    requires 2 <= |A| && SameLinks(A, va, B, vb)
    requires (va == Directed) == (vb == Directed)
    ensures GrcValue(A, va) == GrcValue(B, vb)
  {
    forall u | 0 <= u < |A|
      ensures Lrc(A, va, u) == Lrc(B, vb, u)
    {
      SameBall(A, va, B, vb, u, |A|);
      SameWeights(A, va, B, vb, u);
    }
    assert Lrcs(A, va) == Lrcs(B, vb);
  }

  lemma {:induction false} SameRowEdges(A: Matrix, B: Matrix, view: View, i: nat, m: nat)
    requires SameLinks(A, view, B, view)
    ensures RowEdges(A, view, i, m) == RowEdges(B, view, i, m)
  {
    if m > 0 {
      SameRowEdges(A, B, view, i, m - 1);
    }
  }

  lemma {:induction false} SameUnorderedEdges(A: Matrix, B: Matrix, view: View, k: nat)
    requires SameLinks(A, view, B, view)
    ensures UnorderedEdges(A, view, k) == UnorderedEdges(B, view, k)
  {
    if k > 0 {
      SameUnorderedEdges(A, B, view, k - 1);
      SameRowEdges(A, B, view, k - 1, k);
    }
  }

  /** grc sees only the undirected links of A: two square matrices with the
      same links give the same result, whatever either `directed` flag. */
  lemma GrcDependsOnLinks(A: Matrix, B: Matrix, d1: bool, d2: bool)
    requires IsSquare(A) && IsSquare(B) && SameLinks(A, Undirected, B, Undirected)
    ensures Grc(A, d1) == Grc(B, d2)
  {
    SameUnorderedEdges(A, B, Undirected, |A|);
    if |A| >= 2 {
      SameGrcValue(A, Undirected, B, Undirected);
    }
    if |A| == 1 {
      assert Edge(A, Undirected, 0, 0) <==> Edge(B, Undirected, 0, 0);
    }
  }

  /** Neither the flag nor the orientation of the arcs matters. */
  lemma GrcIgnoresDirection(A: Matrix, directed: bool)
    requires IsSquare(A)
    ensures Grc(A, directed) == Grc(A, !directed)
    ensures Grc(Transpose(A), directed) == Grc(A, directed)
  {
    GrcDependsOnLinks(A, A, directed, !directed);
    GrcDependsOnLinks(Transpose(A), A, directed, directed);
  }
}

=== FILE: reaching_example.dfy ===
/** The ten-node test network of the reaching-centrality test suite: a
    symmetric matrix of diameter two whose GRC is 1/27. */
module ReachingExample {
  import opened Graph
  import opened Outcome
  import opened Aggregate
  import opened Reaching

  const MatE: Matrix := [
    [0, 1, 0, 0, 1, 0, 0, 0, 1, 1],
    [1, 0, 1, 0, 0, 0, 1, 1, 0, 1],
    [0, 1, 0, 0, 1, 1, 1, 0, 1, 0],
    [0, 0, 0, 0, 0, 1, 0, 0, 0, 1],
    [1, 0, 1, 0, 0, 1, 0, 1, 1, 0],
    [0, 0, 1, 1, 1, 0, 0, 1, 1, 0],
    [0, 1, 1, 0, 0, 0, 0, 0, 0, 1],
    [0, 1, 0, 0, 1, 1, 0, 0, 1, 1],
    [1, 0, 1, 0, 1, 1, 0, 1, 0, 0],
    [1, 1, 0, 1, 0, 0, 1, 1, 0, 0]
  ]

  /** The neighbours of each node of MatE. */
  function NbrE(u: nat): set<nat> {
    match u
    case 0 => {1, 4, 8, 9}
    case 1 => {0, 2, 6, 7, 9}
    case 2 => {1, 4, 5, 6, 8}
    case 3 => {5, 9}
    case 4 => {0, 2, 5, 7, 8}
    case 5 => {2, 3, 4, 7, 8}
    case 6 => {1, 2, 9}
    case 7 => {1, 4, 5, 8, 9}
    case 8 => {0, 2, 4, 5, 7}
    case _ => {0, 1, 3, 6, 7}
  }

  /** A common neighbour of two nodes of MatE that are not adjacent. */
  function Via(u: nat, v: nat): nat {
    match (u, v)
    case (0, 2) => 1
    case (0, 3) => 9
    case (0, 5) => 4
    case (0, 6) => 1
    case (0, 7) => 1
    case (1, 3) => 9
    case (1, 4) => 0
    case (1, 5) => 2
    case (1, 8) => 0
    case (2, 0) => 1
    case (2, 3) => 5
    case (2, 7) => 1
    case (2, 9) => 1
    case (3, 0) => 9
    case (3, 1) => 9
    case (3, 2) => 5
    case (3, 4) => 5
    case (3, 6) => 9
    case (3, 7) => 5
    case (3, 8) => 5
    case (4, 1) => 0
    case (4, 3) => 5
    case (4, 6) => 2
    case (4, 9) => 0
    case (5, 0) => 4
    case (5, 1) => 2
    case (5, 6) => 2
    case (5, 9) => 3
    case (6, 0) => 1
    case (6, 3) => 9
    case (6, 4) => 2
    case (6, 5) => 2
    case (6, 7) => 1
    case (6, 8) => 2
    case (7, 0) => 1
    case (7, 2) => 1
    case (7, 3) => 5
    case (7, 6) => 1
    case (8, 1) => 0
    case (8, 3) => 5
    case (8, 6) => 2
    case (8, 9) => 0
    case (9, 2) => 1
    case (9, 4) => 0
    case (9, 5) => 3
    case (9, 8) => 0
    case _ => 0
  }

  /** A is a 10 x 10 matrix whose arcs are those of MatE. The example is
      proved for every such matrix, which keeps the solver from evaluating
      the constant. */
  ghost predicate ShapeE(A: Matrix) {
    |A| == 10 && IsSquare(A) && forall u: nat, v: nat :: Arc(A, u, v) <==> u < 10 && v in NbrE(u)
  }

  lemma ShapeOfE()
    ensures ShapeE(MatE)
  {
    forall u: nat, v: nat
      ensures Arc(MatE, u, v) <==> u < 10 && v in NbrE(u)
    {
      if u < 5 && v < 10 {
        UpperRowsE(u, v);
      } else if u < 10 && v < 10 {
        LowerRowsE(u, v);
      }
    }
  }

  lemma UpperRowsE(u: nat, v: nat)
    requires u < 5 && v < 10
    ensures MatE[u][v] != 0 <==> v in NbrE(u)
  {
  }

  lemma LowerRowsE(u: nat, v: nat)
    requires 5 <= u < 10 && v < 10
    ensures MatE[u][v] != 0 <==> v in NbrE(u)
  {
  }

  /** The links of MatE are its arcs, every node is within two hops of
      every other, and the degrees are 4, 5, 5, 2, 5, 5, 3, 5, 5, 5. */
  lemma LinksE(A: Matrix, u: nat)
    requires ShapeE(A) && u < 10
    ensures WithinTwo(A, Undirected, u)
    ensures Degree(A, Undirected, u) == |NbrE(u)|
  {
    forall v: nat | v < |A| && v != u && !Edge(A, Undirected, u, v)
      ensures exists w: nat :: Edge(A, Undirected, u, w) && Edge(A, Undirected, w, v)
    {
      ViaE(A, u, v);
    }
    NeighboursE(A, u);
  }

  lemma ViaE(A: Matrix, u: nat, v: nat)
    requires ShapeE(A) && u < 10 && v < 10 && v != u && !Edge(A, Undirected, u, v)
    ensures Edge(A, Undirected, u, Via(u, v)) && Edge(A, Undirected, Via(u, v), v)
  {
  }

  lemma NeighboursE(A: Matrix, u: nat)
    requires ShapeE(A) && u < 10
    ensures (set v | 0 <= v < |A| && v != u && Edge(A, Undirected, u, v)) == NbrE(u)
  {
  }

  /** C_R(u) = (9 + deg(u)) / 18 on a graph of diameter two with N = 10. */
  lemma LrcTen(A: Matrix, u: nat)
    requires |A| == 10 && u < 10 && WithinTwo(A, Undirected, u)
    ensures Lrc(A, Undirected, u) == (9 + Degree(A, Undirected, u)) as real / 18.0
  {
    LrcWithinTwo(A, Undirected, u);
    TenNodes(Lrc(A, Undirected, u), |A|, Degree(A, Undirected, u));
  }

  lemma TenNodes(x: real, n: int, d: int)
    requires n == 10 && x == ((n - 1) + d) as real / (2 * (n - 1)) as real
    ensures x == (9 + d) as real / 18.0
  {
  }

  lemma LrcE(A: Matrix, u: nat)
    requires ShapeE(A) && u < 10
    ensures Lrc(A, Undirected, u) == (9 + |NbrE(u)|) as real / 18.0
  {
    LinksE(A, u);
    LrcTen(A, u);
  }

  /** The reaching centralities of MatE, node by node. */
  const LrcsOfE: seq<real> :=
    [13.0 / 18.0, 14.0 / 18.0, 14.0 / 18.0, 11.0 / 18.0, 14.0 / 18.0,
     14.0 / 18.0, 12.0 / 18.0, 14.0 / 18.0, 14.0 / 18.0, 14.0 / 18.0]

  lemma DegreeE(u: nat)
    requires u < 10
    ensures (9 + |NbrE(u)|) as real / 18.0 == LrcsOfE[u]
  {
    if u == 0 {
      assert |NbrE(u)| == 4;
    } else if u == 3 {
      assert |NbrE(u)| == 2;
    } else if u == 6 {
      assert |NbrE(u)| == 3;
    } else {
      assert |NbrE(u)| == 5;
    }
  }

  lemma LrcsE(A: Matrix)
    requires ShapeE(A)
    ensures Lrcs(A, Undirected) == LrcsOfE
  {
    var cs := Lrcs(A, Undirected);
    forall u | 0 <= u < 10
      ensures cs[u] == LrcsOfE[u]
    {
      LrcE(A, u);
      DegreeE(u);
    }
  }

  /** The sum of the centralities is 134/18. */
  lemma SumE(s: seq<real>)
    requires s == LrcsOfE
    ensures Sum(s) == 134.0 / 18.0
  {
    assert Sum(s[..1]) == 13.0 / 18.0;
    assert s[..2][..1] == s[..1];
    assert Sum(s[..2]) == 27.0 / 18.0;
    assert s[..3][..2] == s[..2];
    assert Sum(s[..3]) == 41.0 / 18.0;
    assert s[..4][..3] == s[..3];
    assert Sum(s[..4]) == 52.0 / 18.0;
    assert s[..5][..4] == s[..4];
    assert Sum(s[..5]) == 66.0 / 18.0;
    assert s[..6][..5] == s[..5];
    assert Sum(s[..6]) == 80.0 / 18.0;
    assert s[..7][..6] == s[..6];
    assert Sum(s[..7]) == 92.0 / 18.0;
    assert s[..8][..7] == s[..7];
    assert Sum(s[..8]) == 106.0 / 18.0;
    assert s[..9][..8] == s[..8];
    assert Sum(s[..9]) == 120.0 / 18.0;
    assert s[..10][..9] == s[..9];
    assert Sum(s[..10]) == 134.0 / 18.0;
    assert s[..10] == s;
  }

  /** The maximum centrality is 14/18, the gaps sum to 140/18 - 134/18 =
      6/18, and the spread is (6/18) / 9 = 1/27. */
  lemma SpreadE(s: seq<real>)
    requires s == LrcsOfE
    ensures Spread(s) == 1.0 / 27.0
  {
    var m := Max(s);
    assert s[1] <= m;
    var top :| 0 <= top < |s| && s[top] == m;
    assert m == 14.0 / 18.0;
    SumE(s);
    GapsIsDeficit(s, m);
  }

  /** GRC of the test network. */
  lemma ExampleE(A: Matrix, directed: bool)
    requires ShapeE(A)
    ensures Grc(A, directed) == Ok(Centrality(1.0 / 27.0, false))
  {
    LrcsE(A);
    SpreadE(LrcsOfE);
    assert Arc(A, 0, 1);
  }

  lemma TestMatrixE()
    ensures Grc(MatE, true) == Ok(Centrality(1.0 / 27.0, false))
  {
    ShapeOfE();
    ExampleE(MatE, true);
  }
}

=== FILE: splitter.dfy ===
/** Past/future splitters over a time series. A splitter holds the series
    and an index; each call of NextData returns the next (past, future) pair
    and advances the index, until the splits run out. The four kinds differ
    only in where they cut. */
module Splitting {
  import opened Outcome

  datatype Kind =
    | Halves           // one split, at the middle
    | Full             // every split point 1 .. n - 1
    | Quartiles        // three splits, near each quarter
    | QuartileSubsets  // the quarter cuts, but only the two pieces next to the cut

  datatype Splitter<T> = Splitter(kind: Kind, data: seq<T>, index: nat)

  /** A fresh splitter over data. */
  function NewSplitter<T>(kind: Kind, data: seq<T>): (s: Splitter<T>)
    ensures s.kind == kind && s.data == data && s.index == 0
  {
    Splitter(kind, data, 0)
  }

  /** nu_splits: how many pairs the splitter yields; for Full on an empty
      series this is -1. */
  function NuSplits(kind: Kind, n: nat): int {
    match kind
    case Halves => 1
    case Full => n - 1
    case Quartiles => 3
    case QuartileSubsets => 3
  }

  /** The quarter, the half and the third-quarter point: the half h = n / 2,
      then the midpoints of [0, h] and [h, n], each rounded down. */
  function QuartilePoints(n: nat): (p: seq<nat>)
    ensures |p| == 3 && p[0] <= p[1] <= p[2] <= n
    ensures p[1] == n / 2 && 2 * p[0] <= p[1] && p[1] - 2 * p[0] <= 1
    ensures 2 * (p[2] - p[1]) <= n - p[1] <= 2 * (p[2] - p[1]) + 1
  {
    var h := n / 2;
    [h / 2, h, h + (n - h) / 2]
  }

  /** The cut points of split i: the past is [start, k), the future is
      [k, stop). */
  function Cuts(kind: Kind, n: nat, i: nat): (c: (nat, nat, nat))
    requires i < NuSplits(kind, n)
    ensures c.0 <= c.1 <= c.2 <= n
    ensures kind != QuartileSubsets ==> c.0 == 0 && c.2 == n
  {
    match kind
    case Halves => (0, n / 2, n)
    case Full => (0, i + 1, n)
    case Quartiles => (0, QuartilePoints(n)[i], n)
    case QuartileSubsets =>
      var s := [0] + QuartilePoints(n) + [n];
      (s[i], s[i + 1], s[i + 2])
  }

  /** True while the splitter has pairs left. */
  predicate HasNext<T>(s: Splitter<T>) {
    s.index < NuSplits(s.kind, |s.data|)
  }

  /** The pair split s.index would return. */
  function CurrentPair<T>(s: Splitter<T>): (pair: (seq<T>, seq<T>))
    requires HasNext(s)
  {
    var c := Cuts(s.kind, |s.data|, s.index);
    (s.data[c.0..c.1], s.data[c.1..c.2])
  }

  /** nextData: the next pair and the advanced splitter, or nothing and the
      splitter unchanged once the splits are used up. */
  function NextData<T>(s: Splitter<T>): (r: (Splitter<T>, Option<(seq<T>, seq<T>)>))
    ensures r.1.None? <==> !HasNext(s)
    ensures r.1.None? ==> r.0 == s
    ensures r.1.Some? ==> r.0 == s.(index := s.index + 1) && r.1.value == CurrentPair(s)
  {
    if !HasNext(s) then (s, None)
    else (s.(index := s.index + 1), Some(CurrentPair(s)))
  }

  // ---------------------------------------------------------------------
  // What the splits are

  /** Every kind but QuartileSubsets divides the whole series into past and
      future. */
  lemma SplitCovers<T>(s: Splitter<T>)
    requires HasNext(s) && s.kind != QuartileSubsets
    ensures CurrentPair(s).0 + CurrentPair(s).1 == s.data
  {
    var c := Cuts(s.kind, |s.data|, s.index);
    assert s.data == s.data[..c.1] + s.data[c.1..];
  }

  /** The halves splitter cuts at the middle; on an even series both halves
      have the same length. */
  lemma HalvesLengths<T>(s: Splitter<T>)
    requires HasNext(s) && s.kind == Halves
    ensures |CurrentPair(s).0| == |s.data| / 2
    ensures |CurrentPair(s).1| == |s.data| - |s.data| / 2
    ensures |s.data| % 2 == 0 ==> |CurrentPair(s).0| == |CurrentPair(s).1|
  {
  }

  /** Call i of the full splitter returns i + 1 past and n - i - 1 future
      samples. */
  lemma FullLengths<T>(s: Splitter<T>)
    requires HasNext(s) && s.kind == Full
    ensures |CurrentPair(s).0| == s.index + 1
    ensures |CurrentPair(s).1| == |s.data| - s.index - 1
  {
  }

  /** QuartileSubsets returns two adjacent pieces, and the future of one call
      is the past of the next. */
  lemma SubsetsChain<T>(s: Splitter<T>)
    requires HasNext(s) && s.kind == QuartileSubsets
    ensures var c := Cuts(s.kind, |s.data|, s.index);
            CurrentPair(s).0 + CurrentPair(s).1 == s.data[c.0..c.2]
    ensures HasNext(NextData(s).0) ==> CurrentPair(NextData(s).0).0 == CurrentPair(s).1
  {
    var c := Cuts(s.kind, |s.data|, s.index);
    assert s.data[c.0..c.2] == s.data[c.0..c.1] + s.data[c.1..c.2];
  }

  /** For n >= 2 no quartile subset pair is entirely empty. */
  lemma SubsetsNonEmpty<T>(s: Splitter<T>)
    requires HasNext(s) && s.kind == QuartileSubsets && |s.data| >= 2
    ensures |CurrentPair(s).0| + |CurrentPair(s).1| > 0
  {
    var n := |s.data|;
    var p := QuartilePoints(n);
    assert 0 < p[1] < n && p[0] < p[1];
    var c := Cuts(s.kind, n, s.index);
    assert c.0 < c.2;
  }

  // ---------------------------------------------------------------------
  // Running a splitter to the end

  /** The pairs nextData yields from s on, in order. */
  function Pairs<T>(s: Splitter<T>): (ps: seq<(seq<T>, seq<T>)>)
    ensures |ps| == if HasNext(s) then NuSplits(s.kind, |s.data|) - s.index else 0
    decreases NuSplits(s.kind, |s.data|) - s.index
  {
    if !HasNext(s) then [] else [CurrentPair(s)] + Pairs(NextData(s).0)
  }

  /** The k-th remaining pair is the one cut at index s.index + k. */
  lemma {:induction false} PairsAt<T>(s: Splitter<T>, k: nat)
    requires k < |Pairs(s)|
    ensures HasNext(s.(index := s.index + k))
    ensures Pairs(s)[k] == CurrentPair(s.(index := s.index + k))
    decreases k
  {
    if k > 0 {
      var t := NextData(s).0;
      PairsAt(t, k - 1);
      assert t.(index := t.index + (k - 1)) == s.(index := s.index + k);
    }
  }

  /** A fresh splitter yields exactly nu_splits pairs (none when that is
      negative). */
  lemma FreshPairs<T>(kind: Kind, data: seq<T>)
    ensures |Pairs(NewSplitter(kind, data))| == if NuSplits(kind, |data|) > 0 then NuSplits(kind, |data|) else 0
  {
  }

  // ---------------------------------------------------------------------
  // The ten-sample series of the test suite

  lemma QuartilePointsOfTen()
    ensures QuartilePoints(10) == [2, 5, 7]
  {
  }

  /** Past lengths 2, 5, 7 and future lengths 8, 5, 3 for Quartiles; 2, 3, 2
      and 3, 2, 3 for QuartileSubsets; 5 and 5 for Halves. */
  lemma TenSampleLengths<T>(data: seq<T>, kind: Kind, i: nat)
    requires |data| == 10 && i < NuSplits(kind, 10)
    ensures var s := Splitter(kind, data, i);
            var p := CurrentPair(s);
            match kind
            case Halves => |p.0| == 5 && |p.1| == 5
            case Full => |p.0| == i + 1 && |p.1| == 9 - i
            case Quartiles => |p.0| == [2, 5, 7][i] && |p.1| == [8, 5, 3][i]
            case QuartileSubsets => |p.0| == [2, 3, 2][i] && |p.1| == [3, 2, 3][i]
  {
    QuartilePointsOfTen();
  }
}
